=== FILE: README.md ===
# teuthology thrasher, cluster waits and task configuration in Dafny

This project models the decision logic of teuthology, the Ceph integration
test harness, and proves properties of it. Five parts are modelled:

- the OSD **thrasher**: its four membership lists (in/out, live/dead); the
  five fault actions; the weighted choice of the next action; one
  iteration of `do_thrash`; and `all_up`;
- **`CephManager`**'s reading of the cluster: the OSD status snapshot, PG
  counts, the unfound-object count, and the four blocking waits, including
  the stagnation-reset timeout of `wait_till_clean`;
- the **clock-skew check**: its defaults, the per-poll recording of skewed
  monitors, and the final verdict;
- the **install** task: flavour and build selection, the repository URL,
  the version fetch, package pins, and which packages are installed and
  purged;
- the **command line** (`teuthology` and `teuthology-schedule`) and the
  **rgw** task: option checks, the init-task prefix, the scheduled job
  record, rgw config normalisation, the one-rgw-per-host check, and the
  radosgw command line.

Everything is pure functions over immutable data.

How the model represents the Python program:

- **Side effects become data.** Remote commands are a returned list of `Cmd`
  values. Random choices are explicit draws (`draw % |xs|` picks from a
  list). Clock and cluster observations are finite traces of
  `Sample(time, obs)`.
- **Exceptions are `Err` values.** Each carries the state as the raising
  statement left it. For example, `revive_osd` has already appended to the
  live list when `list.remove` fails on the dead list.
- **Waits have three outcomes.** A wait ends `Reached(at)` or `TimedOut(at)`
  at a sample index, or `Unfinished` when the trace runs out first.

Modules:

- `Wrappers`: `Option`, `Result`.
- `Text`: the Python `str` operations the code uses.
- `ClusterStatus`: `get_osd_status`, PG counts, unfound.
- `Waits`: the four waits.
- `Membership`: the lists and the actions.
- `ActionChoice`: `choose_action`.
- `Thrasher`: the loops and `do_thrash`.
- `ClockSkew`, `Install`, `RunCli`, `Rgw`: the remaining parts.

Points where the code behaves differently from what a reader might
expect; the model follows the code:

- **Stagnation timeout.** `wait_till_clean` checks the deadline before it
  looks at the progress metric. Suppose the metric changes at t=0, 5 and 9
  and the timeout is 4. The wait then fails at t=5, because that poll comes
  5 s after the reset at t=0, even though the metric is still moving. See
  `Waits.StagnationWait` and `Waits.ProgressNeverTimesOut`.
- **Integer `chance_down`.** Any `int` value of `chance_down` is divided by
  100, including 0 and 1, not only values above 1. See
  `ActionChoice.IntChanceIsPercent`.
- **No enabled action.** When no action is enabled, `choose_action` returns
  `None`. `do_thrash` then calls it, which raises, so the thrasher stops
  with an error rather than skipping the iteration. See `Thrasher.NothingEnabledFails`.
- **`expect-skew` spelling.** The clock-skew docstring spells the key
  `expect_skew`, but the code reads `expect-skew`. `ClockSkew.Init` models
  the key the code reads.

## Model

| member | source | states |
|---|---|---|
| Membership.Pick | teuthology/task/ceph_manager.py:37-38 | an explicit id is used as given; otherwise a member of the list is chosen, and an empty list raises |
| Membership.Remove | teuthology/task/ceph_manager.py:40 | `list.remove` drops the first occurrence and keeps the order of the rest: the result is the list with the position of the first `x` cut out, so the length falls by one and the multiset loses one copy |
| Membership.StopOsd | teuthology/task/ceph_manager.py:36-50 | fails exactly when there is no live id to pick or the id is not live, leaving the lists untouched; on success the id leaves live and is appended to dead, with in/out unchanged |
| Membership.Kill | teuthology/task/ceph_manager.py:36-42 | `kill_osd` moves the id from live to dead and issues exactly one stop of that id |
| Membership.BlackholeKill | teuthology/task/ceph_manager.py:44-50 | `blackhole_kill_osd` moves the id the same way and issues exactly one blackhole-then-stop |
| Membership.Revive | teuthology/task/ceph_manager.py:52-58 | moves dead to live and issues one restart; an explicit id that is not dead raises after it was already appended to live |
| Membership.Out | teuthology/task/ceph_manager.py:60-66 | moves in to out; the mark-out command is issued before `list.remove`, so a non-member id raises after the command |
| Membership.In | teuthology/task/ceph_manager.py:68-76 | a dead id is revived and stays out; any other id moves out to in with one mark-in; fails exactly when the id is neither out nor dead |
| Membership.OutcomeKeeps | teuthology/task/ceph_manager.py:36-76 | a completed action keeps the ids of both axes (in+out, live+dead), so a valid partition stays valid |
| Membership.ActionsPreserveValid | teuthology/task/ceph_manager.py:36-76 | each of the five actions preserves the two partitions |
| Membership.ValidExclusive | teuthology/task/ceph_manager.py:14-18 | in a valid state no id is both in and out, or both live and dead |
| Membership.KillThenRevive | teuthology/task/ceph_manager.py:36-58 | killing an id and then reviving it restores the dead list exactly and the live list as a multiset |
| Membership.OutThenIn | teuthology/task/ceph_manager.py:60-76 | marking a live id out and then in restores the out list exactly and the in list as a multiset |
| Membership.InOnDeadRevives | teuthology/task/ceph_manager.py:68-72 | `in_osd` on a dead id is exactly `revive_osd` on it, and the id stays in the out list |
| Membership.Apply | teuthology/task/ceph_manager.py:132 | calling a chosen action with no argument fails exactly when its source list is empty, and otherwise preserves validity |
| ActionChoice.ChanceDown | teuthology/task/ceph_manager.py:89-91 | an absent `chance_down` is 0; an `int` is a percentage (the value times 100 gives the int back); a float is used as given |
| ActionChoice.Candidates | teuthology/task/ceph_manager.py:99-107 | an action is listed iff its guard holds; kill weighs `chance_down` and the others 1; all weights are positive; the order is out, kill, in, revive |
| ActionChoice.Select | teuthology/task/ceph_manager.py:109-115 | the subtract-and-compare loop returns the first index whose running total exceeds the draw, or none when the draw is at or beyond every total |
| ActionChoice.ChooseAction | teuthology/task/ceph_manager.py:88-115 | a chosen action is always enabled; with nothing enabled nothing is chosen |
| ActionChoice.SelectInterval | teuthology/task/ceph_manager.py:109-115 | for a non-negative draw, index k is chosen iff the draw lies in `[Cum(k), Cum(k+1))` |
| ActionChoice.SelectTotal | teuthology/task/ceph_manager.py:109-115 | every draw in `[0, total)` picks some action |
| ActionChoice.KillShare | teuthology/task/ceph_manager.py:102-114 | the kill action's interval of the draw range has width exactly `chance_down` |
| ActionChoice.NoOutAtFloor | teuthology/task/ceph_manager.py:92-101 | with the in list at or below `min_in`, mark-out is never chosen |
| ActionChoice.NoneIffNothingEnabled | teuthology/task/ceph_manager.py:99-115 | for a draw inside the range, `None` is returned iff no guard holds |
| ActionChoice.IntChanceIsPercent | teuthology/task/ceph_manager.py:89-91 | `chance_down: 1` weighs 0.01 while `1.0` weighs 1.0; absent means 0 |
| ActionChoice.DefaultsOnlyMarkOut | teuthology/task/ceph_manager.py:89-107 | under the default floors and weight, four live in-OSDs can only be marked out |
| Thrasher.ReviveWhileAbove | teuthology/task/ceph_manager.py:127-128 | revives until at most `max_dead` are dead, issuing only restarts (one per revived id) and changing neither in nor out; a negative bound empties the dead list and then raises |
| Thrasher.InStep | teuthology/task/ceph_manager.py:68-76 | one `in_osd()` on a non-empty out list completes, strictly shrinks out plus dead, and issues one mark-in or restart |
| Thrasher.InWhileOut | teuthology/task/ceph_manager.py:81-82 | the mark-in loop terminates with the out list empty, never grows the dead list, and issues only mark-ins and restarts |
| Thrasher.AllUp | teuthology/task/ceph_manager.py:78-82 | `all_up` ends with nothing dead or out and keeps both axes' ids; from a valid state every id ends both in and live |
| Thrasher.AllUpIdempotent | teuthology/task/ceph_manager.py:78-82 | a second `all_up` changes nothing and issues no command |
| Thrasher.PreClean | teuthology/task/ceph_manager.py:126-131 | above the roll nothing happens; otherwise, on success at most `max_dead` are dead and the clean wait was reached; in/out are unchanged; a clean timeout needs a configured timeout |
| Thrasher.ThrashIteration | teuthology/task/ceph_manager.py:122-133 | a zero `clean_interval` raises on the division; a completed iteration keeps both axes' ids and validity and consumes a draw |
| Thrasher.ApplyKeeps | teuthology/task/ceph_manager.py:132 | a completed chosen action keeps both axes' ids |
| Thrasher.DoThrash | teuthology/task/ceph_manager.py:117-134 | when every iteration completes, the thrasher ends with nothing dead or out and, from a valid state, every id in and live |
| Thrasher.DefaultPreCleanRevivesAll | teuthology/task/ceph_manager.py:118-131 | with the defaults, a roll under 5/60 revives every dead OSD before the clean wait |
| Thrasher.NothingEnabledFails | teuthology/task/ceph_manager.py:132 | when no action is enabled, calling the `None` result raises and no list changes |
| Thrasher.ChosenActionCompletes | teuthology/task/ceph_manager.py:99-113 | with non-negative floors a chosen action always finds an id to act on |
| ClusterStatus.KeptLines | teuthology/task/ceph_manager.py:172-174 | a dump line is kept iff it starts with `osd.` and mentions `up` or `down`, and a kept line appears as often as in the dump (repeated lines stay repeated) |
| ClusterStatus.KeptLinesAppend | teuthology/task/ceph_manager.py:172-174 | the filter keeps line order: filtering two pieces of a dump and joining them is filtering the whole |
| ClusterStatus.IdsWith | teuthology/task/ceph_manager.py:176-187 | the ids listed are exactly those of the kept lines carrying the flag; a flagged line without an integer id raises |
| ClusterStatus.IdsWithHead | teuthology/task/ceph_manager.py:176-187 | the reading of a list succeeds iff its first line (when flagged) and the rest read, and then lists the first line's id, if flagged, before the rest |
| ClusterStatus.IdsWithAppend | teuthology/task/ceph_manager.py:176-187 | ids come out in line order, one per flagged line, duplicates kept: reading two pieces of a dump and joining the lists is reading the whole |
| ClusterStatus.OneFlaggedLine | teuthology/task/ceph_manager.py:176-187 | a single flagged line contributes exactly its own id |
| ClusterStatus.DaemonIds | teuthology/task/ceph_manager.py:188-191 | the live (dead) ids are exactly the ids of running (stopped) daemons |
| ClusterStatus.GetOsdStatus | teuthology/task/ceph_manager.py:171-193 | each of in/out/up/down holds exactly the ids of the kept lines with that flag; live/dead follow the daemon registry; raw is the kept lines |
| ClusterStatus.LivenessPartition | teuthology/task/ceph_manager.py:188-191 | the live and dead lists together are the registry's ids, as a multiset |
| ClusterStatus.AdmissionMayOverlap | teuthology/task/ceph_manager.py:176-181 | a line carrying both ` in ` and ` out ` puts its id in both lists: the admission axis is not checked to be a partition |
| ClusterStatus.OsdLineRoundTrip | teuthology/task/ceph_manager.py:172-187 | a dump line written for an id and state is kept, reads back that id, and carries the matching flags |
| ClusterStatus.CountPrefix | teuthology/task/ceph_manager.py:223-237 | the count is at most the number of PGs, and equals it iff every state has the prefix |
| ClusterStatus.CountPrefixCounts | teuthology/task/ceph_manager.py:223-237 | the count is the number of positions in the PG list whose state starts with the prefix |
| ClusterStatus.ActiveCleanAtMostActive | teuthology/task/ceph_manager.py:223-237 | every `active+clean` PG is also counted as `active` |
| ClusterStatus.CleanImpliesActive | teuthology/task/ceph_manager.py:239-240 | when the PG total agrees with the dump, `is_clean` implies `is_active` |
| ClusterStatus.FirstUnfound | teuthology/task/ceph_manager.py:215-217 | the search returns the leftmost position where `\d+/\d+ unfound` matches, or none |
| ClusterStatus.NumUnfound | teuthology/task/ceph_manager.py:212-221 | no match gives 0 |
| ClusterStatus.NumUnfoundLeftmost | teuthology/task/ceph_manager.py:215-221 | with a match, the count is the number before the slash of the leftmost match |
| ClusterStatus.UnfoundRoundTrip | teuthology/task/ceph_manager.py:212-221 | a status line `<n>/<m> unfound` reads back as n |
| Waits.AbsoluteWait | teuthology/task/ceph_manager.py:261-269 | returns at the first sample where the predicate holds; fails at the first earlier sample past the deadline; neither happens before |
| Waits.AbsoluteNoTimeout | teuthology/task/ceph_manager.py:265-267 | without a timeout the wait never fails |
| Waits.WaitTillOsdIsUp | teuthology/task/ceph_manager.py:257-269 | returns at the first sample with `up > 0`, provided no earlier sample passed the deadline; fails at the first down sample past the deadline, provided no earlier sample was up; still waiting at the end of the trace only if no sample was up or past the deadline |
| Waits.WaitTillActive | teuthology/task/ceph_manager.py:271-282 | returns at the first active sample, provided no earlier sample passed the deadline; fails at the first inactive sample past the deadline, provided no earlier sample was active; still waiting at the end only if no sample was active or past the deadline |
| Waits.WaitForMonQuorumSize | teuthology/task/ceph_manager.py:325-333 | returns at the first sample whose quorum has the wanted size, provided no earlier sample passed the deadline; fails at the first wrong-size sample past the deadline, with no earlier expiry or right size; still waiting at the end only if neither ever happened |
| Waits.QuorumDefaultDeadline | teuthology/task/ceph_manager.py:325-331 | with the default 300 s, a quorum that never reaches the size fails exactly at the first poll 300 s after the start |
| Waits.StagnationWait | teuthology/task/ceph_manager.py:244-254 | the outcome is the first sample that is clean (returns) or else stalled, i.e. at least `timeout` after the last sample that changed the active+clean count (fails); with neither the trace runs out |
| Waits.StagnationDetermined | teuthology/task/ceph_manager.py:244-254 | that first-clean-or-stalled contract admits exactly one outcome, the loop's |
| Waits.WaitTillClean | teuthology/task/ceph_manager.py:242-255 | returns at the first clean sample with no stall before it; fails exactly at the first unclean sample that is stalled, with no clean sample and no stall before it; still waiting at the end only if no sample was clean or stalled |
| Waits.StallExample | teuthology/task/ceph_manager.py:246-253 | with the count moving at t=0, 5 and 9 and a timeout of 4, the wait fails at the t=5 poll |
| Waits.ProgressNeverTimesOut | teuthology/task/ceph_manager.py:246-253 | while the count changes at every poll and polls come within the timeout, the wait never fails |
| Waits.SteadyIsAbsolute | teuthology/task/ceph_manager.py:246-253 | when the count never moves, the stagnation wait is the absolute wait |
| Waits.CleanNoTimeout | teuthology/task/ceph_manager.py:247-249 | without a timeout `wait_till_clean` never fails |
| ClockSkew.Init | teuthology/task/mon_clock_skew_check.py:54-60 | each of `interval`, `max-skew`, `expect-skew`, `never-fail` is used as given; a key absent from the dict, or a `None` config, gives 30, 0.05, false, false respectively |
| ClockSkew.KeysIndependent | teuthology/task/mon_clock_skew_check.py:54-60 | a `None` config is the empty dict, and setting any one of the four keys changes only its own setting |
| ClockSkew.Defaults | teuthology/task/mon_clock_skew_check.py:54-60 | with no config: interval 30, tolerance 0.05, no skew expected, failures not suppressed |
| ClockSkew.Record | teuthology/task/mon_clock_skew_check.py:79-93 | fails iff some skewed monitor is not `HEALTH_WARN`, naming it; otherwise records exactly the skewed monitors, the last report of each winning, and keeps older entries |
| ClockSkew.RecordNamesFirst | teuthology/task/mon_clock_skew_check.py:79-85 | the error names the monitor of the first timecheck that is skewed but not `HEALTH_WARN`: every timecheck before it passes the assertion |
| ClockSkew.Collect | teuthology/task/mon_clock_skew_check.py:74-93 | over all polls: fails iff some poll has an unhealthy skewed monitor; otherwise the recorded monitors are those skewed in any poll |
| ClockSkew.AllSkewedMembers | teuthology/task/mon_clock_skew_check.py:93-103 | a monitor counts toward the total iff some poll finds it skewed, however many polls do |
| ClockSkew.ExpectationsComplement | teuthology/task/mon_clock_skew_check.py:115-122 | for every count exactly one of the two expectations is an error |
| ClockSkew.Conclude | teuthology/task/mon_clock_skew_check.py:112-127 | passes iff no error was found; fails iff an error was found and `never-fail` is off; only reports iff `never-fail` is on |
| ClockSkew.Check | teuthology/task/mon_clock_skew_check.py:71-127 | the assertion on a monitor fires iff some poll has an unhealthy skewed monitor; otherwise the check passes iff the skewed set is non-empty exactly when a skew was expected |
| ClockSkew.NeverFailNeverFails | teuthology/task/mon_clock_skew_check.py:124-127 | with `never-fail` the count never fails the check |
| Install.Flavor | teuthology/task/install.py:275-287 | the flavour is one of local, notcmalloc, gcov, the configured one, or basic; coverage alone gives gcov, and with none of path, valgrind, coverage the configured flavour (default basic) is used |
| Install.PathWins | teuthology/task/install.py:277-279 | a local path gives `local` whatever else is configured |
| Install.ValgrindBeatsCoverage | teuthology/task/install.py:280-287 | without a path, valgrind gives `notcmalloc` whatever coverage and flavour say |
| Install.CoverageBeatsConfigured | teuthology/task/install.py:284-287 | without a path or valgrind, coverage gives `gcov` whatever flavour is configured |
| Install.ConfiguredFlavor | teuthology/task/install.py:275-287 | the configured flavour (default basic) is the result iff nothing forces another, or what is forced happens to be the same |
| Install.UriPrecedence | teuthology/task/install.py:56-65 | reading the uri back names sha1 if given, else tag, else branch, else `master` |
| Install.UriShadowing | teuthology/task/install.py:58-65 | a sha1 makes tag and branch irrelevant; a tag makes branch irrelevant |
| Install.BaseUrlComponents | teuthology/task/install.py:67-75 | the URL's path components are the host (default `gitbuilder.ceph.com`), `{debtype}-deb-{dist}-{arch}-{flavor}`, then the uri's own components |
| Install.FetchVersion | teuthology/task/install.py:79-97 | non-ceph packages fetch nothing; a version is the stripped output of the first successful fetch after only failures; raising happens iff the first fetch fails without `wait_for_package` |
| Install.WaitNeverRaises | teuthology/task/install.py:88-92 | with `wait_for_package` a failed fetch is always retried |
| Install.Pins | teuthology/task/install.py:107-124 | one pin per package, in order, each the package name followed by `=` |
| Install.PinsRoundTrip | teuthology/task/install.py:107-124 | splitting a pin at `=` gives back the package and the version (empty when unknown) |
| Install.PackagePlan | teuthology/task/install.py:236-252 | `extra_packages: None` raises; otherwise the purge list is the base list then the extras, and the install list is the purge list plus the four library packages |
| Install.LibsNeverPurged | teuthology/task/install.py:240-252 | a library package is installed but never purged unless it is also an extra package |
| RunCli.PrepareRun | teuthology/run.py:85-145 | `--block` without `--lock` is refused first; a task naming `kernel` is refused; `targets` with `--lock` is refused; on success the owner defaults to the user, the description is recorded, and no job task names `kernel` |
| RunCli.PreparedTasks | teuthology/run.py:124-145 | the tasks become the init prefix (9 entries, plus the lock and kernel when present) followed by the job's tasks unchanged; the lock comes first with the number of roles; `kernel` appears in exactly one entry, the top-level one |
| RunCli.Schedule | teuthology/run.py:246-279 | `--email` or `--timeout` (when truthy) without `--last-in-suite` is refused; `--delete` deletes exactly the job ids given and schedules nothing; otherwise the record has the seven base keys plus `results_timeout` iff a timeout was given |
| RunCli.ScheduleRoundTrip | teuthology/run.py:251-279 | reading the queued record back gives every option, with the owner defaulting to `scheduled_<user>` |
| RunCli.ZeroTimeoutRecorded | teuthology/run.py:246-279 | a zero timeout passes the last-in-suite check but is still recorded |
| Rgw.Normalize | teuthology/task/rgw.py:232-236 | no config means one key `client.<id>` per client role; a list means its names; both with no per-client config |
| Rgw.NormalizeAllClients | teuthology/task/rgw.py:232-234 | with no config, a key is present iff it is `client.` followed by a client id of the cluster |
| Rgw.NormalizeKeepsDict | teuthology/task/rgw.py:232-236 | a dict config is kept as written |
| Rgw.HostAcceptsCount | teuthology/task/rgw.py:238-243 | the per-host loop with its `running_rgw` flag rejects exactly when two configured roles are seen |
| Rgw.CountTwo | teuthology/task/rgw.py:238-243 | two configured roles on a host means two positions of its role list holding them |
| Rgw.OnePerHost | teuthology/task/rgw.py:238-243 | the check fails iff some host lists two roles that are configured clients |
| Rgw.RunCmd | teuthology/task/rgw.py:103-134 | the command has the 15 fixed arguments plus the valgrind arguments |
| Rgw.RunCmdLayout | teuthology/task/rgw.py:108-134 | the command is the 5-argument daemon-helper prefix, then the valgrind arguments, then the radosgw tail; stdout is redirected to the archive log, and the only raw shell arguments are the two redirections |
| Rgw.NoneConfigIsEmpty | teuthology/task/rgw.py:103-105 | a client with a `None` config starts exactly as one with an empty dict |
| Rgw.HostCountIsSize | teuthology/task/rgw.py:55 | the count is the size of the set of hosts whose role list holds the role |
| Rgw.Task | teuthology/task/rgw.py:232-250 | with the template read before it is formatted (see Findings): fails with the host assertion iff some host has two configured roles; otherwise fails with the unpacking error of `ship_config` (rgw.py:54-55) iff some configured client is not on exactly one host; otherwise every configured client, on its single host, gets the `start_rgw` command built from its own config (`Rgw.RunCmd`: the daemon-helper prefix, the valgrind arguments of its own `valgrind` entry, then the radosgw tail) |
| Rgw.TaskAsWritten | teuthology/task/rgw.py:48-60 | the code as it stands: the host assertion as in `Rgw.Task`; past it, an empty config succeeds with no daemon, and any other config fails at the first client in iteration order, with the unpacking error if that client is not on exactly one host and otherwise with the AttributeError of `f.format` |
| Rgw.AsWrittenOnlyFailsMore | teuthology/task/rgw.py:54-60 | the template defect only turns successes into failures: whenever `Rgw.Task` fails so does the code as written, and where the code as written succeeds both give the same result |
| Rgw.TemplateFormatFails | teuthology/task/rgw.py:56-60 | `rgw: [client.0]` on one host running `client.0` and `osd.0` fails with the AttributeError |
| Rgw.OneClientStarts | teuthology/task/rgw.py:232-250 | the same input succeeds under the corrected template read |
| Rgw.MissingClientFails | teuthology/task/rgw.py:54-55 | a configured client that no host has makes the task fail |
| Text.SplitOn | teuthology/task/ceph_manager.py:174 | `split('\n')` gives at least one piece, and no piece holds the separator |
| Text.JoinSplit | teuthology/task/ceph_manager.py:174 | joining the pieces of a split gives back the input |
| Text.Strip | teuthology/task/install.py:95 | `strip()` is the slice between a whitespace prefix and a whitespace suffix, with no whitespace at either end |
| Text.FirstTokenOf | teuthology/task/ceph_manager.py:176 | `split()[0]` reads back a token written between whitespace |
| Text.IntRoundTrip | teuthology/task/ceph_manager.py:176 | `int(str(i)) == i` for the ids in a dump |

## Left out

- Concurrency is not modelled: the gevent greenlets, the `stopping` flag, `do_join`, and the spawning of the clock-skew check. `do_thrash` runs for a given finite list of rounds, then `all_up`.
- Remote execution, sleeps and the wall clock are not modelled: `raw_cluster_cmd`, `remote.run`, daemon stop and restart, and `time.sleep`. Commands are returned as data; clock readings come in the traces.
- JSON and YAML decoding, `get_pg_stats`, `get_osd_dump` and `get_mon_quorum` are left out: their decoded results are the trace observations.
- The `get_num_pgs` regular expression is left out; the PG total is an input of each observation.
- `FakeCephManager` is left out, since it only returns `None` or `''`.
- Logging, printing, `os.mkdir`, the archive log file, `parse_args`, `MergeConfig` and `read_config` are left out.
- `Thrasher.__init__` is left out: its initial `wait_till_clean`, the `injectargs` command and the snapshot. A thrasher starts from given lists, which `ClusterStatus.GetOsdStatus` describes.
- The quorum wait and the `get_mon_names` call inside the clock-skew loop are left out; the polls given are the ones made before stopping.
- Python floats (`chance_down`, the draws, skews, intervals) are exact reals, so rounding is not modelled.
- `osd_is_up` indexes the OSD dump list by id; the model observes the `up` field directly, so an id beyond the list (an IndexError) is not modelled.
- `get_valgrind_args` and `get_user` are not part of this model: the first is a function parameter and the second is an input.
- The `with contextutil.nested(...)` tails (directory creation, Apache, sources lists, package purging) are left out. Only the lists they receive are modelled.
- `in`-checks on task entries assume each entry is a dict; a string entry would be a substring test in Python.
- ClockSkew.Collect: each poll's `timechecks` list is an input. Line 78 of mon_clock_skew_check.py calls `get_mon_health(True)`, which the `CephManager` of ceph_manager.py does not define (it has only `get_mon_status`), so as written the first poll would raise AttributeError. The model assumes a health query that returns `timechecks`.
- Waits.StagnationWait: one sample stands for one loop iteration, with one PG observation and one clock reading. The source reads the PG stats three times per iteration (twice in `is_clean`, once for the metric) and the clock twice (ceph_manager.py:246-253). The model resets the timer to the deadline-check reading, which is earlier than the program's reset reading, so the model can time out earlier than the program.
- Thrasher.PreClean: a clean wait whose trace ends before it is decided is reported as a `CleanUndecided` halt; the real loop would keep polling.
- RunCli.PrepareRun: the `targets` refusal is stated in one direction only, because a missing `tasks` key is reported before it.
- Install.Flavor: the config is the one after `teuthology.deep_merge(config, overrides.get('ceph', {}))` (install.py:264-265), so a `flavor`, `path`, `valgrind` or `coverage` given under `overrides: ceph:` counts as given; the merge itself is not modelled.
- Install.Flavor: a flavour key present with value `None` is treated like an absent key; Python would format `None` into the URL.
- Membership.Valid: the two partitions are a hypothesis of the lemmas, not a property established at construction, because the snapshot's admission lists may overlap (`ClusterStatus.AdmissionMayOverlap`).
- Thrasher.ThrashIteration: negative floors (`min_live`, `min_dead`, and so on) can enable an action on an empty list; such an action raises and halts the iteration. `Thrasher.ChosenActionCompletes` covers only non-negative floors.

## Findings

| source | as written | input that shows it | evidently intended | confidence | as-written member | corrected member |
|---|---|---|---|---|---|---|
| teuthology/task/rgw.py:56-60 | `ship_config` opens the Apache template with `file(src, 'rb')` and passes `f.format(testdir=testdir)` as the data; a Python 2 file object has no `format` method, so the first configured client raises AttributeError before any radosgw is started | `rgw: [client.0]` on a cluster whose one host runs `client.0` and `osd.0` | read the template and format its text, `f.read().format(testdir=testdir)`, so that every configured client gets its config and its radosgw | high, not executed | Rgw.TaskAsWritten, Rgw.TemplateFormatFails | Rgw.Task, Rgw.OneClientStarts |

=== FILE: action_choice.dfy ===
/** `Thrasher.choose_action`: read the floors and the kill weight from the
    thrasher config, list the enabled actions in a fixed order with their
    weights, and return the first whose cumulative weight exceeds a uniform
    draw. Python floats are modelled as `real`; the draw `val` of
    `random.uniform(0, total)` is an input. */
module ActionChoice {
  import opened Wrappers
  import opened Membership

  /** A config value that may be a Python `int` or `float`. */
  datatype Number = IntNum(i: int) | FloatNum(f: real) {
    /** `float(x)` */
    function AsReal(): real {
      match this
      case IntNum(i) => i as real
      case FloatNum(f) => f
    }
  }

  /** The thrasher config keys; `None` is a key absent from the dict. */
  datatype Config = Config(
    chanceDown: Option<Number>,
    minIn: Option<int>,
    minOut: Option<int>,
    minLive: Option<int>,
    minDead: Option<int>,
    maxDead: Option<int>,
    cleanInterval: Option<Number>,
    opDelay: Option<Number>,
    timeout: Option<int>)

  /** `config=None` becomes an empty dict. */
  const EmptyConfig := Config(None, None, None, None, None, None, None, None, None)

  /** `chance_down`, default 0: an `int` is a percentage and is divided by
      100 whatever its value; a `float` is used as is. */
  function ChanceDown(c: Config): (p: real)
    ensures c.chanceDown.None? ==> p == 0.0
    ensures c.chanceDown.Some? && c.chanceDown.value.IntNum? ==> p * 100.0 == c.chanceDown.value.i as real
    ensures c.chanceDown.Some? && c.chanceDown.value.FloatNum? ==> p == c.chanceDown.value.f
  {
    match c.chanceDown.GetOr(IntNum(0))
    case IntNum(i) => i as real / 100.0
    case FloatNum(f) => f
  }

  function MinIn(c: Config): int { c.minIn.GetOr(2) }
  function MinOut(c: Config): int { c.minOut.GetOr(0) }
  function MinLive(c: Config): int { c.minLive.GetOr(2) }
  function MinDead(c: Config): int { c.minDead.GetOr(0) }

  /** An enabled action and its weight. */
  datatype Candidate = Candidate(action: Action, weight: real)

  /** The fixed position of each action in the candidate list. */
  function Rank(a: Action): nat {
    match a
    case OutOsd => 0
    case KillOsd => 1
    case InOsd => 2
    case ReviveOsd => 3
  }

  /** The action enabled at a rank, if its guard passes. */
  ghost predicate Enabled(s: Osds, c: Config, a: Action) {
    match a
    case OutOsd => |s.inOsds| > MinIn(c)
    case KillOsd => |s.liveOsds| > MinLive(c) && ChanceDown(c) > 0.0
    case InOsd => |s.outOsds| > MinOut(c)
    case ReviveOsd => |s.deadOsds| > MinDead(c)
  }

  ghost function WeightOf(c: Config, a: Action): real {
    if a == KillOsd then ChanceDown(c) else 1.0
  }

  /** The list `actions` built in `choose_action`: each enabled action, in
      the fixed order out, kill, in, revive. */
  function Candidates(s: Osds, c: Config): (r: seq<Candidate>)
    ensures forall a: Action :: Enabled(s, c, a) <==> Candidate(a, WeightOf(c, a)) in r
    ensures forall k :: 0 <= k < |r| ==> r[k] == Candidate(r[k].action, WeightOf(c, r[k].action)) && r[k].weight > 0.0
    ensures forall i, j :: 0 <= i < j < |r| ==> Rank(r[i].action) < Rank(r[j].action)
  {
    CandidatesFacts(s, c);
    BuildFor(s, c)
  }

  /** One conditional `actions.append` per action. */
  function Build(b0: bool, b1: bool, b2: bool, b3: bool, cd: real): seq<Candidate> {
    (if b0 then [Candidate(OutOsd, 1.0)] else [])
      + (if b1 then [Candidate(KillOsd, cd)] else [])
      + (if b2 then [Candidate(InOsd, 1.0)] else [])
      + (if b3 then [Candidate(ReviveOsd, 1.0)] else [])
  }

  /** The candidate list of `choose_action` for a state and config. */
  function BuildFor(s: Osds, c: Config): seq<Candidate> {
    Build(|s.inOsds| > MinIn(c), |s.liveOsds| > MinLive(c) && ChanceDown(c) > 0.0,
          |s.outOsds| > MinOut(c), |s.deadOsds| > MinDead(c), ChanceDown(c))
  }

  lemma CandidatesFacts(s: Osds, c: Config)
    ensures var r := BuildFor(s, c);
      (forall a: Action :: Enabled(s, c, a) <==> Candidate(a, WeightOf(c, a)) in r)
      && (forall k :: 0 <= k < |r| ==> r[k] == Candidate(r[k].action, WeightOf(c, r[k].action)) && r[k].weight > 0.0)
      && (forall i, j :: 0 <= i < j < |r| ==> Rank(r[i].action) < Rank(r[j].action))
  {
    CandidatesMembers(s, c);
    CandidatesWeights(s, c);
    BuildOrder(|s.inOsds| > MinIn(c), |s.liveOsds| > MinLive(c) && ChanceDown(c) > 0.0,
               |s.outOsds| > MinOut(c), |s.deadOsds| > MinDead(c), ChanceDown(c));
  }

  /** The guards of `choose_action` decide membership, action by action. */
  lemma CandidatesMembers(s: Osds, c: Config)
    ensures forall a: Action :: Enabled(s, c, a) <==> Candidate(a, WeightOf(c, a)) in BuildFor(s, c)
  {
    var cd := ChanceDown(c);
    BuildMembers(|s.inOsds| > MinIn(c), |s.liveOsds| > MinLive(c) && cd > 0.0,
                 |s.outOsds| > MinOut(c), |s.deadOsds| > MinDead(c), cd);
    forall a: Action
      ensures Enabled(s, c, a) <==> Candidate(a, WeightOf(c, a)) in BuildFor(s, c)
    {
      match a
      case OutOsd =>
      case KillOsd =>
      case InOsd =>
      case ReviveOsd =>
    }
  }

  lemma CandidatesWeights(s: Osds, c: Config)
    ensures var r := BuildFor(s, c);
      forall k :: 0 <= k < |r| ==> r[k] == Candidate(r[k].action, WeightOf(c, r[k].action)) && r[k].weight > 0.0
  {
    var cd := ChanceDown(c);
    var r := BuildFor(s, c);
    BuildWeights(|s.inOsds| > MinIn(c), |s.liveOsds| > MinLive(c) && cd > 0.0,
                 |s.outOsds| > MinOut(c), |s.deadOsds| > MinDead(c), cd);
    forall k | 0 <= k < |r|
      ensures r[k] == Candidate(r[k].action, WeightOf(c, r[k].action)) && r[k].weight > 0.0
    {
      assert WeightOf(c, r[k].action) == if r[k].action == KillOsd then cd else 1.0;
    }
  }

  /** An action is in the list exactly when its flag is set. */
  lemma BuildMembers(b0: bool, b1: bool, b2: bool, b3: bool, cd: real)
    ensures var r := Build(b0, b1, b2, b3, cd);
      (b0 <==> Candidate(OutOsd, 1.0) in r) && (b1 <==> Candidate(KillOsd, cd) in r)
      && (b2 <==> Candidate(InOsd, 1.0) in r) && (b3 <==> Candidate(ReviveOsd, 1.0) in r)
  {
  }

  /** Kill weighs `cd`, every other action 1. */
  lemma BuildWeights(b0: bool, b1: bool, b2: bool, b3: bool, cd: real)
    requires b1 ==> cd > 0.0
    ensures var r := Build(b0, b1, b2, b3, cd);
      forall k :: 0 <= k < |r| ==> r[k] == Candidate(r[k].action, if r[k].action == KillOsd then cd else 1.0) && r[k].weight > 0.0
  {
  }

  /** The list follows the fixed rank order. */
  lemma BuildOrder(b0: bool, b1: bool, b2: bool, b3: bool, cd: real)
    ensures var r := Build(b0, b1, b2, b3, cd);
      forall i, j :: 0 <= i < j < |r| ==> Rank(r[i].action) < Rank(r[j].action)
  {
  }

  /** Sum of the first `n` weights. */
  function Cum(cands: seq<Candidate>, n: nat): real
    requires n <= |cands|
  {
    if n == 0 then 0.0 else cands[0].weight + Cum(cands[1..], n - 1)
  }

  /** `sum([y for (x, y) in actions])` */
  function Total(cands: seq<Candidate>): real {
    Cum(cands, |cands|)
  }

  /** The `for` loop of `choose_action`: the first candidate whose
      cumulative weight exceeds `val`, by subtracting each weight passed. */
  function Select(cands: seq<Candidate>, val: real): (r: Option<nat>)
    ensures r.Some? ==> r.value < |cands| && val < Cum(cands, r.value + 1)
    ensures r.Some? ==> forall j :: 0 < j <= r.value ==> Cum(cands, j) <= val
    ensures r.None? ==> forall j :: 0 < j <= |cands| ==> Cum(cands, j) <= val
    decreases |cands|
  {
    if |cands| == 0 then None
    else if val < cands[0].weight then Some(0)
    else
      match Select(cands[1..], val - cands[0].weight)
      case None =>
        assert forall j :: 1 < j <= |cands| ==> Cum(cands, j) == cands[0].weight + Cum(cands[1..], j - 1);
        None
      case Some(k) =>
        assert forall j :: 1 < j <= k + 1 ==> Cum(cands, j) == cands[0].weight + Cum(cands[1..], j - 1);
        Some(k + 1)
  }

  /** `choose_action(val)`; `None` when no action is enabled or the draw
      lies beyond the total. */
  function ChooseAction(s: Osds, c: Config, val: real): (r: Option<Action>)
    ensures r.Some? ==> Enabled(s, c, r.value)
    ensures Candidates(s, c) == [] ==> r.None?
  {
    var cands := Candidates(s, c);
    match Select(cands, val)
    case None => None
    case Some(k) => Some(cands[k].action)
  }

  // ---------------------------------------------------------------------
  // Properties of the choice

  /** With positive weights the partial sums increase. */
  lemma {:induction false} CumMonotone(cands: seq<Candidate>, i: nat, j: nat)
    requires i <= j <= |cands|
    requires forall k :: 0 <= k < |cands| ==> cands[k].weight > 0.0
    ensures Cum(cands, i) <= Cum(cands, j)
    ensures i < j ==> Cum(cands, i) < Cum(cands, j)
    decreases j
  {
    if i < j {
      if i == 0 {
        CumMonotone(cands[1..], 0, j - 1);
      } else {
        CumMonotone(cands[1..], i - 1, j - 1);
      }
    }
  }

  /** For a draw in `[0, total)` the candidate chosen is the one whose
      interval `[Cum(k), Cum(k+1))` holds the draw, and conversely. */
  lemma SelectInterval(cands: seq<Candidate>, val: real, k: nat)
    requires forall i :: 0 <= i < |cands| ==> cands[i].weight > 0.0
    requires 0.0 <= val && k < |cands|
    ensures Select(cands, val) == Some(k) <==> Cum(cands, k) <= val < Cum(cands, k + 1)
  {
    var r := Select(cands, val);
    if Cum(cands, k) <= val < Cum(cands, k + 1) {
      if r.Some? && r.value < k {
        CumMonotone(cands, r.value + 1, k);
      }
    }
  }

  /** Every draw in `[0, total)` picks some action. */
  lemma SelectTotal(cands: seq<Candidate>, val: real)
    requires 0.0 <= val < Total(cands)
    ensures Select(cands, val).Some?
  {
  }

  /** The kill action's share of the draw range is exactly `chance_down`. */
  lemma KillShare(s: Osds, c: Config, k: nat)
    requires k < |Candidates(s, c)| && Candidates(s, c)[k].action == KillOsd
    ensures Cum(Candidates(s, c), k + 1) - Cum(Candidates(s, c), k) == ChanceDown(c)
  {
    CumStep(Candidates(s, c), k);
  }

  /** `Cum(k + 1)` adds the weight at `k`. */
  lemma {:induction false} CumStep(cands: seq<Candidate>, k: nat)
    requires k < |cands|
    ensures Cum(cands, k + 1) == Cum(cands, k) + cands[k].weight
    decreases k
  {
    if k > 0 {
      CumStep(cands[1..], k - 1);
    }
  }

  /** No mark-out is chosen when the in list is at or below its floor. */
  lemma NoOutAtFloor(s: Osds, c: Config, val: real)
    requires |s.inOsds| <= MinIn(c)
    ensures ChooseAction(s, c, val) != Some(OutOsd)
  {
  }

  /** `choose_action` returns `None` exactly when nothing is enabled, for
      any draw inside `[0, total)`. */
  lemma NoneIffNothingEnabled(s: Osds, c: Config, val: real)
    requires 0.0 <= val && (Candidates(s, c) != [] ==> val < Total(Candidates(s, c)))
    ensures ChooseAction(s, c, val).None? <==>
              !Enabled(s, c, OutOsd) && !Enabled(s, c, KillOsd) && !Enabled(s, c, InOsd) && !Enabled(s, c, ReviveOsd)
  {
    var cands := Candidates(s, c);
    if cands != [] {
      SelectTotal(cands, val);
      assert Enabled(s, c, cands[0].action);
    }
  }

  /** An `int` chance of 1 is a one-in-a-hundred weight, not certainty. */
  lemma IntChanceIsPercent()
    ensures ChanceDown(EmptyConfig.(chanceDown := Some(IntNum(1)))) == 0.01
    ensures ChanceDown(EmptyConfig.(chanceDown := Some(FloatNum(1.0)))) == 1.0
    ensures ChanceDown(EmptyConfig) == 0.0
  {
  }

  /** With the defaults (no kill weight, floors 2/0/2/0) four live, in OSDs
      can only be marked out. */
  lemma DefaultsOnlyMarkOut(s: Osds, val: real)
    requires |s.inOsds| == 4 && |s.liveOsds| == 4 && |s.outOsds| == 0 && |s.deadOsds| == 0
    requires 0.0 <= val < 1.0
    ensures ChooseAction(s, EmptyConfig, val) == Some(OutOsd)
  {
    assert Candidates(s, EmptyConfig) == [Candidate(OutOsd, 1.0)];
  }
}

=== FILE: clock_skew.dfy ===
/** `ClockSkewCheck` of the `mon_clock_skew_check` task: settings with their
    defaults, the per-poll recording of monitors whose skew exceeds the
    tolerance, and the pass/fail verdict once polling stops. Skews are
    `real`; each poll's `timechecks` list is an input, and polling stops after
    the polls given. */
module ClockSkew {
  import opened Wrappers

  /** The task's options; `None` is a key absent from the dict. */
  datatype SkewConfig = SkewConfig(interval: Option<real>, maxSkew: Option<real>, expectSkew: Option<bool>, neverFail: Option<bool>)

  datatype Settings = Settings(checkInterval: real, maxSkew: real, expectSkew: bool, neverFail: bool)

  const NoOptions := SkewConfig(None, None, None, None)

  /** `ClockSkewCheck.__init__`: a `None` config is an empty dict; each
      missing key takes its default. */
  function Init(config: Option<SkewConfig>): (s: Settings)
    ensures config.Some? && config.value.interval.Some? ==> s.checkInterval == config.value.interval.value
    ensures config.Some? && config.value.maxSkew.Some? ==> s.maxSkew == config.value.maxSkew.value
    ensures config.Some? && config.value.expectSkew.Some? ==> s.expectSkew == config.value.expectSkew.value
    ensures config.Some? && config.value.neverFail.Some? ==> s.neverFail == config.value.neverFail.value
    ensures (config.None? || config.value.interval.None?) ==> s.checkInterval == 30.0
    ensures (config.None? || config.value.maxSkew.None?) ==> s.maxSkew == 0.05
    ensures (config.None? || config.value.expectSkew.None?) ==> !s.expectSkew
    ensures (config.None? || config.value.neverFail.None?) ==> !s.neverFail
  {
    var c := config.GetOr(NoOptions);
    Settings(c.interval.GetOr(30.0), c.maxSkew.GetOr(0.05), c.expectSkew.GetOr(false), c.neverFail.GetOr(false))
  }

  /** The defaults: 30 s between polls, 0.05 s tolerance, no skew expected,
      failures not suppressed. */
  lemma Defaults()
    ensures Init(None) == Settings(30.0, 0.05, false, false)
  {
  }

  /** A `None` config behaves as an empty dict, and each key given
      changes only its own setting. */
  lemma KeysIndependent(c: SkewConfig, interval: real, maxSkew: real, expectSkew: bool, neverFail: bool)
    ensures Init(None) == Init(Some(NoOptions))
    ensures Init(Some(c.(interval := Some(interval)))) == Init(Some(c)).(checkInterval := interval)
    ensures Init(Some(c.(maxSkew := Some(maxSkew)))) == Init(Some(c)).(maxSkew := maxSkew)
    ensures Init(Some(c.(expectSkew := Some(expectSkew)))) == Init(Some(c)).(expectSkew := expectSkew)
    ensures Init(Some(c.(neverFail := Some(neverFail)))) == Init(Some(c)).(neverFail := neverFail)
  {
  }

  /** One element of `health['timechecks']`. */
  datatype Timecheck = Timecheck(name: string, skew: real, health: string, details: string)

  /** What `skews[mon_id]` records. */
  datatype Entry = Entry(skew: real, details: string)

  function EntryOf(t: Timecheck): Entry {
    Entry(t.skew, t.details)
  }

  predicate Skewed(t: Timecheck, maxSkew: real) {
    t.skew > maxSkew
  }

  /** A skewed monitor that does not report `HEALTH_WARN` fails the
      assertion in `do_check`. */
  predicate Unhealthy(t: Timecheck, maxSkew: real) {
    Skewed(t, maxSkew) && t.health != "HEALTH_WARN"
  }

  /** `ts[i]` is the first unhealthy timecheck: the one whose assertion
      fails and ends the loop. */
  ghost predicate FirstUnhealthy(ts: seq<Timecheck>, maxSkew: real, i: int) {
    0 <= i < |ts| && Unhealthy(ts[i], maxSkew) && forall j :: 0 <= j < i ==> !Unhealthy(ts[j], maxSkew)
  }

  /** `name` is the monitor of the first unhealthy timecheck. */
  ghost predicate NamesFirstUnhealthy(ts: seq<Timecheck>, maxSkew: real, name: string) {
    exists i :: FirstUnhealthy(ts, maxSkew, i) && name == ts[i].name
  }

  /** The first unhealthy timecheck of a prefix stays first in the whole. */
  lemma FirstUnhealthySnoc(ts: seq<Timecheck>, init: seq<Timecheck>, maxSkew: real, name: string)
    requires |ts| > 0 && init == ts[..|ts| - 1]
    requires NamesFirstUnhealthy(init, maxSkew, name)
    ensures NamesFirstUnhealthy(ts, maxSkew, name)
  {
    var i :| FirstUnhealthy(init, maxSkew, i) && name == init[i].name;
    assert forall j :: 0 <= j <= i ==> init[j] == ts[j];
    assert FirstUnhealthy(ts, maxSkew, i);
  }

  /** After a healthy prefix, an unhealthy last timecheck is the first. */
  lemma FirstUnhealthyLast(ts: seq<Timecheck>, init: seq<Timecheck>, maxSkew: real)
    requires |ts| > 0 && init == ts[..|ts| - 1] && Unhealthy(ts[|ts| - 1], maxSkew)
    requires forall i :: 0 <= i < |init| ==> !Unhealthy(init[i], maxSkew)
    ensures NamesFirstUnhealthy(ts, maxSkew, ts[|ts| - 1].name)
  {
    assert forall j :: 0 <= j < |init| ==> init[j] == ts[j];
    assert FirstUnhealthy(ts, maxSkew, |ts| - 1);
  }

  /** The names of the skewed monitors among `ts`. */
  ghost function SkewedNames(ts: seq<Timecheck>, maxSkew: real): set<string> {
    set i | 0 <= i < |ts| && Skewed(ts[i], maxSkew) :: ts[i].name
  }

  /** `ts[i]` is the last skewed timecheck for its monitor. */
  ghost predicate LastFor(ts: seq<Timecheck>, maxSkew: real, i: nat)
    requires i < |ts|
  {
    Skewed(ts[i], maxSkew) && forall j :: i < j < |ts| ==> !(Skewed(ts[j], maxSkew) && ts[j].name == ts[i].name)
  }

  /** How the facts about `ts` follow from those about all but its last
      element. */
  lemma SnocFacts(ts: seq<Timecheck>, maxSkew: real)
    requires |ts| > 0
    ensures var init := ts[..|ts| - 1]; var t := ts[|ts| - 1];
      SkewedNames(ts, maxSkew) == SkewedNames(init, maxSkew) + (if Skewed(t, maxSkew) then {t.name} else {})
    ensures var init := ts[..|ts| - 1]; var t := ts[|ts| - 1];
      (exists i :: 0 <= i < |ts| && Unhealthy(ts[i], maxSkew)) <==>
        (exists i :: 0 <= i < |init| && Unhealthy(init[i], maxSkew)) || Unhealthy(t, maxSkew)
    ensures var init := ts[..|ts| - 1]; var t := ts[|ts| - 1];
      forall i :: 0 <= i < |init| && LastFor(ts, maxSkew, i) ==>
        LastFor(init, maxSkew, i) && !(Skewed(t, maxSkew) && ts[i].name == t.name)
    ensures var init := ts[..|ts| - 1]; var t := ts[|ts| - 1];
      forall i :: 0 <= i < |init| ==> init[i] == ts[i]
  {
    var init := ts[..|ts| - 1];
    var t := ts[|ts| - 1];
    assert forall i :: 0 <= i < |init| ==> init[i] == ts[i];
    if exists i :: 0 <= i < |ts| && Unhealthy(ts[i], maxSkew) {
      var i :| 0 <= i < |ts| && Unhealthy(ts[i], maxSkew);
      if i < |init| {
        assert Unhealthy(init[i], maxSkew);
      }
    }
  }

  /** The latest entry of every monitor survives one more loop iteration. */
  lemma LastForStep(ts: seq<Timecheck>, maxSkew: real, m: map<string, Entry>)
    requires |ts| > 0
    requires var init := ts[..|ts| - 1];
      forall i :: 0 <= i < |init| && LastFor(init, maxSkew, i) ==> init[i].name in m && m[init[i].name] == EntryOf(init[i])
    ensures var t := ts[|ts| - 1]; var m2 := if Skewed(t, maxSkew) then m[t.name := EntryOf(t)] else m;
      forall i :: 0 <= i < |ts| && LastFor(ts, maxSkew, i) ==> ts[i].name in m2 && m2[ts[i].name] == EntryOf(ts[i])
  {
    var init := ts[..|ts| - 1];
    var t := ts[|ts| - 1];
    var m2 := if Skewed(t, maxSkew) then m[t.name := EntryOf(t)] else m;
    forall i | 0 <= i < |ts| && LastFor(ts, maxSkew, i)
      ensures ts[i].name in m2 && m2[ts[i].name] == EntryOf(ts[i])
    {
      if i < |init| {
        assert init[i] == ts[i];
        assert !(Skewed(t, maxSkew) && ts[i].name == t.name) by {
          assert i < |ts| - 1;
        }
        assert LastFor(init, maxSkew, i) by {
          forall j | i < j < |init|
            ensures !(Skewed(init[j], maxSkew) && init[j].name == init[i].name)
          {
            assert init[j] == ts[j];
          }
        }
      }
    }
  }

  /** The `for timecheck in health['timechecks']` loop after the first
      `|ts|` iterations, starting from `skews`: the assertion failure names
      the monitor. */
  function Record(skews: map<string, Entry>, ts: seq<Timecheck>, maxSkew: real): (r: Result<map<string, Entry>, string>)
    ensures r.Err? <==> exists i :: 0 <= i < |ts| && Unhealthy(ts[i], maxSkew)
    ensures r.Err? ==> exists i :: 0 <= i < |ts| && Unhealthy(ts[i], maxSkew) && r.error == ts[i].name
    ensures r.Ok? ==> r.value.Keys == skews.Keys + SkewedNames(ts, maxSkew)
    ensures r.Ok? ==> forall i :: 0 <= i < |ts| && LastFor(ts, maxSkew, i) ==> ts[i].name in r.value && r.value[ts[i].name] == EntryOf(ts[i])
    ensures r.Ok? ==> forall m :: m in skews && m !in SkewedNames(ts, maxSkew) ==> r.value[m] == skews[m]
    decreases |ts|
  {
    if |ts| == 0 then Ok(skews)
    else
      var init := ts[..|ts| - 1];
      var t := ts[|ts| - 1];
      SnocFacts(ts, maxSkew);
      match Record(skews, init, maxSkew)
      case Err(e) => Err(e)
      case Ok(m) =>
        LastForStep(ts, maxSkew, m);
        if !Skewed(t, maxSkew) then Ok(m)
        else if t.health != "HEALTH_WARN" then Err(t.name)
        else Ok(m[t.name := EntryOf(t)])
  }

  /** The assertion that ends the loop is the one on the first unhealthy
      timecheck: the error names that monitor and no other. */
  lemma {:induction false} RecordNamesFirst(skews: map<string, Entry>, ts: seq<Timecheck>, maxSkew: real)
    ensures Record(skews, ts, maxSkew).Err? ==> NamesFirstUnhealthy(ts, maxSkew, Record(skews, ts, maxSkew).error)
    decreases |ts|
  {
    if |ts| > 0 {
      var init := ts[..|ts| - 1];
      RecordNamesFirst(skews, init, maxSkew);
      match Record(skews, init, maxSkew)
      case Err(e) => FirstUnhealthySnoc(ts, init, maxSkew, e);
      case Ok(_) =>
        if Unhealthy(ts[|ts| - 1], maxSkew) {
          FirstUnhealthyLast(ts, init, maxSkew);
        }
    }
  }

  /** `do_check` over the polls before `stopping` was set. */
  function Collect(polls: seq<seq<Timecheck>>, maxSkew: real): (r: Result<map<string, Entry>, string>)
    ensures r.Err? <==> exists p, i :: 0 <= p < |polls| && 0 <= i < |polls[p]| && Unhealthy(polls[p][i], maxSkew)
    ensures r.Ok? ==> r.value.Keys == AllSkewed(polls, maxSkew)
    decreases |polls|
  {
    if |polls| == 0 then Ok(map[])
    else
      var init := polls[..|polls| - 1];
      assert forall p :: 0 <= p < |init| ==> init[p] == polls[p];
      match Collect(init, maxSkew)
      case Err(e) => Err(e)
      case Ok(m) =>
        var last := polls[|polls| - 1];
        var r := Record(m, last, maxSkew);
        assert r.Err? ==> exists i :: 0 <= i < |last| && Unhealthy(last[i], maxSkew);
        r
  }

  /** Every monitor reported skewed in some poll. */
  ghost function AllSkewed(polls: seq<seq<Timecheck>>, maxSkew: real): set<string>
    decreases |polls|
  {
    if |polls| == 0 then {} else AllSkewed(polls[..|polls| - 1], maxSkew) + SkewedNames(polls[|polls| - 1], maxSkew)
  }

  /** A monitor counts once however many polls find it skewed. */
  lemma {:induction false} AllSkewedMembers(polls: seq<seq<Timecheck>>, maxSkew: real, m: string)
    ensures m in AllSkewed(polls, maxSkew) <==>
              exists p, i :: 0 <= p < |polls| && 0 <= i < |polls[p]| && Skewed(polls[p][i], maxSkew) && polls[p][i].name == m
    decreases |polls|
  {
    if |polls| > 0 {
      var init := polls[..|polls| - 1];
      AllSkewedMembers(init, maxSkew, m);
      assert forall p :: 0 <= p < |init| ==> init[p] == polls[p];
    }
  }

  /** `found_error`: a skew was expected and none found, or none was
      expected and some were. */
  predicate FoundError(expectSkew: bool, total: nat) {
    if expectSkew then total == 0 else total > 0
  }

  /** For every count exactly one of the two expectations is an error. */
  lemma ExpectationsComplement(total: nat)
    ensures FoundError(true, total) != FoundError(false, total)
  {
  }

  datatype Verdict =
    | Pass
    | Reported(message: string)  // found, but `never-fail` only logs it
    | Failed(message: string)    // `assert False, error_str`
    | MonitorNotWarned(monitor: string) // a skewed monitor not in HEALTH_WARN

  /** The end of `do_check`. */
  function Conclude(s: Settings, total: nat): (v: Verdict)
    ensures v.Pass? <==> !FoundError(s.expectSkew, total)
    ensures v.Failed? <==> FoundError(s.expectSkew, total) && !s.neverFail
    ensures v.Reported? <==> FoundError(s.expectSkew, total) && s.neverFail
  {
    if !FoundError(s.expectSkew, total) then Pass
    else
      var msg := if s.expectSkew then "We were expecting a skew, but none was found!"
                 else "We were not expecting a skew, but we did find it!";
      if s.neverFail then Reported(msg) else Failed(msg)
  }

  /** The whole check: collect over the polls, then judge by the number of
      distinct skewed monitors. */
  function Check(s: Settings, polls: seq<seq<Timecheck>>): (v: Verdict)
    ensures v.MonitorNotWarned? <==> exists p, i :: 0 <= p < |polls| && 0 <= i < |polls[p]| && Unhealthy(polls[p][i], s.maxSkew)
    ensures !v.MonitorNotWarned? ==> (v.Pass? <==> (if s.expectSkew then AllSkewed(polls, s.maxSkew) != {} else AllSkewed(polls, s.maxSkew) == {}))
  {
    match Collect(polls, s.maxSkew)
    case Err(m) => MonitorNotWarned(m)
    case Ok(skews) => Conclude(s, |skews.Keys|)
  }

  /** With `never-fail` set the check never fails on the count of skews. */
  lemma NeverFailNeverFails(s: Settings, polls: seq<seq<Timecheck>>)
    requires s.neverFail
    ensures !Check(s, polls).Failed?
  {
  }
}

=== FILE: cluster_status.dfy ===
/** What `CephManager` reads off the cluster: the OSD lists parsed from the
    text of `ceph osd dump` (`get_osd_status`), the placement-group counts
    behind `is_clean`/`is_active`, and the unfound-object count taken from
    the text of `ceph -s`. Command execution and JSON decoding are outside
    the model: the dump and status text, the list of PG state strings and the
    daemon records are inputs. */
module ClusterStatus {
  import opened Wrappers
  import opened Text

  // ---------------------------------------------------------------------
  // get_osd_status

  /** One OSD daemon as the daemon registry reports it. */
  datatype Daemon = Daemon(id: int, running: bool)

  /** The dictionary `get_osd_status` returns. */
  datatype OsdStatus = OsdStatus(
    inOsds: seq<int>, outOsds: seq<int>, upOsds: seq<int>, downOsds: seq<int>,
    deadOsds: seq<int>, liveOsds: seq<int>, raw: seq<string>)

  /** The first filter: a line is kept iff it starts with `osd.` and has
      `up` or `down` anywhere in it (plain substrings, no spaces). */
  predicate KeepLine(line: string) {
    StartsWith(line, "osd.") && (Contains(line, "up") || Contains(line, "down"))
  }

  /** `int(line[4:].split()[0])`; `None` where Python raises. */
  function OsdIdOf(line: string): Option<int> {
    var tok :- FirstToken(if |line| >= 4 then line[4..] else "");
    ParseInt(tok)
  }

  /** `filter(KeepLine, lines)` */
  function KeptLines(lines: seq<string>): (r: seq<string>)
    ensures forall l :: l in r <==> l in lines && KeepLine(l)
    ensures forall l :: KeepLine(l) ==> multiset(r)[l] == multiset(lines)[l]
    ensures |r| <= |lines|
  {
    if |lines| == 0 then []
    else
      assert lines == [lines[0]] + lines[1..];
      if KeepLine(lines[0]) then [lines[0]] + KeptLines(lines[1..])
      else KeptLines(lines[1..])
  }

  /** The filter keeps line order: filtering a dump in two pieces and
      joining the results is filtering it whole. */
  lemma {:induction false} KeptLinesAppend(a: seq<string>, b: seq<string>)
    ensures KeptLines(a + b) == KeptLines(a) + KeptLines(b)
    decreases |a|
  {
    if |a| > 0 {
      assert (a + b)[1..] == a[1..] + b;
      KeptLinesAppend(a[1..], b);
    } else {
      assert a + b == b;
    }
  }

  /** Some line containing `flag` reads as id `x`. */
  ghost predicate Flagged(lines: seq<string>, flag: string, x: int) {
    exists k :: 0 <= k < |lines| && Contains(lines[k], flag) && OsdIdOf(lines[k]) == Some(x)
  }

  /** The ids of the lines that contain `flag`, in line order; the first line
      whose id cannot be read is the error. */
  function IdsWith(lines: seq<string>, flag: string): (r: Result<seq<int>, string>)
    ensures r.Err? <==> exists k :: 0 <= k < |lines| && Contains(lines[k], flag) && OsdIdOf(lines[k]).None?
    ensures r.Err? ==> r.error in lines && Contains(r.error, flag) && OsdIdOf(r.error).None?
    ensures r.Ok? ==> forall x :: x in r.value <==> Flagged(lines, flag, x)
    decreases |lines|
  {
    if |lines| == 0 then Ok([])
    else
      var head := lines[0];
      var rest := IdsWith(lines[1..], flag);
      assert forall k :: 1 <= k < |lines| ==> lines[k] == lines[1..][k - 1];
      if Contains(head, flag) then
        match OsdIdOf(head)
        case None => Err(head)
        case Some(id) =>
          if rest.Err? then Err(rest.error)
          else
            assert forall x :: Flagged(lines, flag, x) <==> x == id || Flagged(lines[1..], flag, x);
            Ok([id] + rest.value)
      else
        if rest.Err? then Err(rest.error)
        else
          assert forall x :: Flagged(lines, flag, x) <==> Flagged(lines[1..], flag, x);
          Ok(rest.value)
  }

  /** The ids come out in line order, one per flagged line, duplicates
      included: reading two pieces of the dump and joining the lists is
      reading it whole. */
  lemma {:induction false} IdsWithAppend(a: seq<string>, b: seq<string>, flag: string)
    requires IdsWith(a, flag).Ok? && IdsWith(b, flag).Ok?
    ensures IdsWith(a + b, flag) == Ok(IdsWith(a, flag).value + IdsWith(b, flag).value)
    decreases |a|
  {
    if |a| > 0 {
      IdsWithAppend(a[1..], b, flag);
      var ab := a + b;
      assert ab[0] == a[0] && ab[1..] == a[1..] + b;
      IdsWithAppendStep(a, ab, IdsWith(b, flag).value, flag);
    } else {
      assert a + b == b;
      assert IdsWith(a, flag) == Ok([]);
      var v := IdsWith(b, flag).value;
      assert IdsWith(b, flag) == Ok(v);
      assert [] + v == v;
      assert IdsWith(a + b, flag) == Ok(v);
    }
  }

  /** One step of `IdsWithAppend`: a list `ab` that starts with the first
      line of `a` and continues with `rest` is read as that line's id
      followed by the reading of `rest`. */
  lemma IdsWithAppendStep(a: seq<string>, ab: seq<string>, tail: seq<int>, flag: string)
    requires |a| > 0 && |ab| > 0 && ab[0] == a[0] && IdsWith(a, flag).Ok?
    requires IdsWith(ab[1..], flag) == Ok(IdsWith(a[1..], flag).value + tail)
    ensures IdsWith(ab, flag) == Ok(IdsWith(a, flag).value + tail)
  {
    IdsWithHead(a, flag);
    IdsWithHead(ab, flag);
    var h, x := HeadId(a[0], flag), IdsWith(a[1..], flag).value;
    ConcatAssoc(h, x, tail);
  }

  /** Sequence concatenation regroups; kept apart so that its proof does not
      meet the contracts of `IdsWith`. */
  lemma ConcatAssoc(h: seq<int>, x: seq<int>, t: seq<int>)
    ensures h + (x + t) == (h + x) + t
  {
  }

  /** The id a single line contributes: its own if it carries the flag. */
  function HeadId(line: string, flag: string): seq<int> {
    if Contains(line, flag) && OsdIdOf(line).Some? then [OsdIdOf(line).value] else []
  }

  /** How `IdsWith` reads a non-empty list: it succeeds iff the first line
      is readable (when flagged) and so is the rest, and then lists the
      first line's id, if flagged, before the rest. */
  lemma IdsWithHead(lines: seq<string>, flag: string)
    requires |lines| > 0
    ensures IdsWith(lines, flag).Ok?
      <==> IdsWith(lines[1..], flag).Ok? && (Contains(lines[0], flag) ==> OsdIdOf(lines[0]).Some?)
    ensures IdsWith(lines, flag).Ok? ==>
      IdsWith(lines, flag).value == HeadId(lines[0], flag) + IdsWith(lines[1..], flag).value
  {
    var rest := IdsWith(lines[1..], flag);
    if !Contains(lines[0], flag) {
      if rest.Ok? {
        assert [] + rest.value == rest.value;
      }
    }
  }

  /** A single flagged line contributes exactly its own id. */
  lemma OneFlaggedLine(line: string, flag: string, id: int)
    requires Contains(line, flag) && OsdIdOf(line) == Some(id)
    ensures IdsWith([line], flag) == Ok([id])
  {
    var one := [line];
    assert one[1..] == [] && one[0] == line;
    assert IdsWith(one[1..], flag) == Ok([]);
    assert [id] + [] == [id];
  }

  /** The ids of the daemons whose running flag is `running`. */
  function DaemonIds(daemons: seq<Daemon>, running: bool): (r: seq<int>)
    ensures forall x :: x in r <==> exists k :: 0 <= k < |daemons| && daemons[k].running == running && daemons[k].id == x
    decreases |daemons|
  {
    if |daemons| == 0 then []
    else
      var rest := DaemonIds(daemons[1..], running);
      assert forall k :: 1 <= k < |daemons| ==> daemons[k] == daemons[1..][k - 1];
      if daemons[0].running == running then [daemons[0].id] + rest else rest
  }

  /** All daemon ids, in registry order. */
  function AllIds(daemons: seq<Daemon>): seq<int> {
    seq(|daemons|, k requires 0 <= k < |daemons| => daemons[k].id)
  }

  /** `get_osd_status`: split the dump into lines, keep the OSD lines, and
      classify each by the substrings ` in `, ` out `, ` up `, ` down `;
      liveness comes from the daemon registry instead. */
  function GetOsdStatus(dump: string, daemons: seq<Daemon>): (r: Result<OsdStatus, string>)
    ensures r.Ok? ==> r.value.raw == KeptLines(SplitOn(dump, '\n'))
    ensures r.Ok? ==> forall x :: x in r.value.inOsds <==> Flagged(r.value.raw, " in ", x)
    ensures r.Ok? ==> forall x :: x in r.value.outOsds <==> Flagged(r.value.raw, " out ", x)
    ensures r.Ok? ==> forall x :: x in r.value.upOsds <==> Flagged(r.value.raw, " up ", x)
    ensures r.Ok? ==> forall x :: x in r.value.downOsds <==> Flagged(r.value.raw, " down ", x)
    ensures r.Ok? ==> forall x :: x in r.value.liveOsds <==> exists k :: 0 <= k < |daemons| && daemons[k].running && daemons[k].id == x
    ensures r.Ok? ==> forall x :: x in r.value.deadOsds <==> exists k :: 0 <= k < |daemons| && !daemons[k].running && daemons[k].id == x
  {
    var lines := KeptLines(SplitOn(dump, '\n'));
    var ins :- IdsWith(lines, " in ");
    var outs :- IdsWith(lines, " out ");
    var ups :- IdsWith(lines, " up ");
    var downs :- IdsWith(lines, " down ");
    Ok(OsdStatus(ins, outs, ups, downs, DaemonIds(daemons, false), DaemonIds(daemons, true), lines))
  }

  /** The liveness axis of a snapshot is always a partition of the registry:
      every daemon is counted once, as live or as dead. */
  lemma {:induction false} LivenessPartition(daemons: seq<Daemon>)
    ensures multiset(DaemonIds(daemons, true)) + multiset(DaemonIds(daemons, false)) == multiset(AllIds(daemons))
    decreases |daemons|
  {
    if |daemons| > 0 {
      LivenessPartition(daemons[1..]);
      assert AllIds(daemons) == [daemons[0].id] + AllIds(daemons[1..]);
    }
  }

  /** The admission axis is not checked: a kept line carrying both ` in ` and
      ` out ` puts its id in both lists. */
  lemma AdmissionMayOverlap(dump: string, daemons: seq<Daemon>, line: string, id: int)
    requires line in SplitOn(dump, '\n') && KeepLine(line)
    requires Contains(line, " in ") && Contains(line, " out ") && OsdIdOf(line) == Some(id)
    requires GetOsdStatus(dump, daemons).Ok?
    ensures id in GetOsdStatus(dump, daemons).value.inOsds
    ensures id in GetOsdStatus(dump, daemons).value.outOsds
  {
    var lines := KeptLines(SplitOn(dump, '\n'));
    var k :| 0 <= k < |lines| && lines[k] == line;
    assert Flagged(lines, " in ", id) && Flagged(lines, " out ", id);
  }

  /** A dump line in the layout `osd.<id> up   in weight 1`. */
  function OsdLine(id: int, up: bool, isIn: bool): string {
    LineOf(IntToString(id), up, isIn)
  }

  /** The same layout around an arbitrary id token. */
  function LineOf(tok: string, up: bool, isIn: bool): string {
    "osd." + tok + " " + (if up then "up" else "down") + "  " + (if isIn then " in " else " out ") + "weight 1"
  }

  /** Reading a formatted dump line back: it passes the filter, its id is
      recovered, and it carries the substrings of its state. */
  lemma OsdLineRoundTrip(id: int, up: bool, isIn: bool)
    ensures KeepLine(OsdLine(id, up, isIn))
    ensures OsdIdOf(OsdLine(id, up, isIn)) == Some(id)
    ensures Contains(OsdLine(id, up, isIn), if up then " up " else " down ")
    ensures Contains(OsdLine(id, up, isIn), if isIn then " in " else " out ")
  {
    var tok := IntToString(id);
    LineKept(tok, up, isIn);
    LineState(tok, up, isIn);
    LineFlag(tok, up, isIn);
    LineId(tok, up, isIn);
    IntRoundTrip(id);
  }

  lemma LineKept(tok: string, up: bool, isIn: bool)
    ensures KeepLine(LineOf(tok, up, isIn))
  {
    var a := "osd." + tok + " ";
    var flag := if isIn then " in " else " out ";
    var line := LineOf(tok, up, isIn);
    if up {
      assert line == a + "up" + ("  " + flag + "weight 1");
      Infix(a, "up", "  " + flag + "weight 1");
    } else {
      assert line == a + "down" + ("  " + flag + "weight 1");
      Infix(a, "down", "  " + flag + "weight 1");
    }
    assert line[..4] == "osd.";
  }

  lemma LineState(tok: string, up: bool, isIn: bool)
    ensures Contains(LineOf(tok, up, isIn), if up then " up " else " down ")
  {
    var a := "osd." + tok;
    var flag := if isIn then " in " else " out ";
    var line := LineOf(tok, up, isIn);
    if up {
      assert line == a + " up " + (" " + flag + "weight 1");
      Infix(a, " up ", " " + flag + "weight 1");
    } else {
      assert line == a + " down " + (" " + flag + "weight 1");
      Infix(a, " down ", " " + flag + "weight 1");
    }
  }

  lemma LineFlag(tok: string, up: bool, isIn: bool)
    ensures Contains(LineOf(tok, up, isIn), if isIn then " in " else " out ")
  {
    var a := "osd." + tok + " " + (if up then "up" else "down") + "  ";
    var line := LineOf(tok, up, isIn);
    if isIn {
      assert line == a + " in " + "weight 1";
      Infix(a, " in ", "weight 1");
    } else {
      assert line == a + " out " + "weight 1";
      Infix(a, " out ", "weight 1");
    }
  }

  lemma LineId(tok: string, up: bool, isIn: bool)
    requires |tok| > 0 && NoSpace(tok)
    ensures OsdIdOf(LineOf(tok, up, isIn)) == ParseInt(tok)
  {
    var tail := " " + (if up then "up" else "down") + "  " + (if isIn then " in " else " out ") + "weight 1";
    assert LineOf(tok, up, isIn) == "osd." + tok + tail;
    IdOfLine(tok, tail);
  }

  /** The id is read from the token right after `osd.`. */
  lemma IdOfLine(tok: string, tail: string)
    requires |tok| > 0 && NoSpace(tok) && |tail| > 0 && IsSpace(tail[0])
    ensures OsdIdOf("osd." + tok + tail) == ParseInt(tok)
  {
    var line := "osd." + tok + tail;
    assert line[4..] == tok + tail;
    FirstTokenOf("", tok, tail);
    assert "" + tok + tail == tok + tail;
  }

  /** A string contains each of its infixes. */
  lemma Infix(a: string, p: string, c: string)
    ensures Contains(a + p + c, p)
    ensures StartsWith(a + p + c, a)
  {
    assert (a + p + c)[|a|..|a| + |p|] == p;
    OccursAtContains(a + p + c, p, |a|);
    assert (a + p + c)[..|a|] == a;
  }

  // ---------------------------------------------------------------------
  // Placement-group counts

  /** One observation of the PG table: the state string of every PG (from
      the JSON `pg dump`) and the PG total (from `ceph -s`). */
  datatype PgObservation = PgObservation(states: seq<string>, numPgs: int)

  /** The number of states that start with `p`. */
  function CountPrefix(states: seq<string>, p: string): (n: nat)
    ensures n <= |states|
    ensures n == |states| <==> forall i :: 0 <= i < |states| ==> StartsWith(states[i], p)
    decreases |states|
  {
    if |states| == 0 then 0
    else
      var rest := CountPrefix(states[1..], p);
      assert forall i :: 1 <= i < |states| ==> states[i] == states[1..][i - 1];
      (if StartsWith(states[0], p) then 1 else 0) + rest
  }

  /** The positions of the states that start with `p`, from `lo` on. */
  ghost function PrefixIndices(states: seq<string>, p: string, lo: nat): set<int> {
    set i | lo <= i < |states| && StartsWith(states[i], p)
  }

  /** The count is the number of PGs whose state starts with `p`. */
  lemma CountPrefixCounts(states: seq<string>, p: string)
    ensures CountPrefix(states, p) == |PrefixIndices(states, p, 0)|
  {
    CountFrom(states, p, 0);
    assert states[0..] == states;
  }

  lemma {:induction false} CountFrom(states: seq<string>, p: string, lo: nat)
    requires lo <= |states|
    ensures CountPrefix(states[lo..], p) == |PrefixIndices(states, p, lo)|
    decreases |states| - lo
  {
    if lo == |states| {
      assert PrefixIndices(states, p, lo) == {};
    } else {
      CountFrom(states, p, lo + 1);
      assert states[lo..][1..] == states[lo + 1..];
      var later := PrefixIndices(states, p, lo + 1);
      assert lo !in later;
      if StartsWith(states[lo], p) {
        assert PrefixIndices(states, p, lo) == later + {lo};
      } else {
        assert PrefixIndices(states, p, lo) == later;
      }
    }
  }

  /** A list whose first `k` states, and only those, have the prefix
      counts `k`. */
  lemma {:induction false} CountLeading(states: seq<string>, p: string, k: nat)
    requires k <= |states|
    requires forall i :: 0 <= i < |states| ==> (StartsWith(states[i], p) <==> i < k)
    ensures CountPrefix(states, p) == k
    decreases |states|
  {
    if |states| > 0 {
      assert forall i :: 0 <= i < |states| - 1 ==> states[1..][i] == states[i + 1];
      CountLeading(states[1..], p, if k > 0 then k - 1 else 0);
    }
  }

  /** `get_num_active_clean` */
  function NumActiveClean(states: seq<string>): nat {
    CountPrefix(states, "active+clean")
  }

  /** `get_num_active` */
  function NumActive(states: seq<string>): nat {
    CountPrefix(states, "active")
  }

  /** `is_clean` */
  predicate IsClean(o: PgObservation) {
    NumActiveClean(o.states) == o.numPgs
  }

  /** `is_active` */
  predicate IsActive(o: PgObservation) {
    NumActive(o.states) == o.numPgs
  }

  /** Every `active+clean` PG is also counted as `active`. */
  lemma {:induction false} ActiveCleanAtMostActive(states: seq<string>)
    ensures NumActiveClean(states) <= NumActive(states)
    decreases |states|
  {
    if |states| > 0 {
      ActiveCleanAtMostActive(states[1..]);
      if StartsWith(states[0], "active+clean") {
        assert states[0][..6] == "active+clean"[..6];
      }
    }
  }

  /** When the PG total agrees with the dump, clean implies active. */
  lemma CleanImpliesActive(o: PgObservation)
    requires o.numPgs == |o.states|
    ensures IsClean(o) ==> IsActive(o)
  {
    ActiveCleanAtMostActive(o.states);
  }

  // ---------------------------------------------------------------------
  // get_num_unfound_objects: re.search("\d+/\d+ unfound", status)

  /** Length of the maximal digit run starting at `i`. */
  function DigitRun(s: string, i: nat): (n: nat)
    requires i <= |s|
    ensures i + n <= |s|
    ensures AllDigits(s[i..i + n])
    ensures i + n == |s| || !IsDigit(s[i + n])
    decreases |s| - i
  {
    if i == |s| || !IsDigit(s[i]) then 0
    else
      var m := DigitRun(s, i + 1);
      assert s[i..i + 1 + m] == [s[i]] + s[i + 1..i + 1 + m];
      1 + m
  }

  /** The pattern `\d+/\d+ unfound` matches at offset `i`. Because `/` and
      space are not digits, both greedy runs must be maximal. */
  predicate UnfoundAt(s: string, i: nat) {
    i <= |s| &&
    var n := DigitRun(s, i);
    var j := i + n;
    n > 0 && j < |s| && s[j] == '/' &&
    var m := DigitRun(s, j + 1);
    m > 0 && StartsWith(s[j + 1 + m..], " unfound")
  }

  /** The leftmost match at or after `i`, as `re.search` finds it. */
  function FirstUnfound(s: string, i: nat): (r: Option<nat>)
    requires i <= |s|
    ensures r.None? ==> forall j :: i <= j <= |s| ==> !UnfoundAt(s, j)
    ensures r.Some? ==> i <= r.value <= |s| && UnfoundAt(s, r.value)
    ensures r.Some? ==> forall j :: i <= j < r.value ==> !UnfoundAt(s, j)
    decreases |s| - i
  {
    if UnfoundAt(s, i) then Some(i)
    else if i == |s| then None
    else FirstUnfound(s, i + 1)
  }

  /** `get_num_unfound_objects`: the number before the slash of the first
      match, or 0 when there is none. */
  function NumUnfound(status: string): (r: nat)
    ensures (forall j :: 0 <= j <= |status| ==> !UnfoundAt(status, j)) ==> r == 0
  {
    match FirstUnfound(status, 0)
    case None => 0
    case Some(i) => LeadingNumber(status, i)
  }

  /** The value of the digit run starting at `i`. */
  function LeadingNumber(s: string, i: nat): nat
    requires i <= |s|
  {
    DigitsValue(s[i..i + DigitRun(s, i)])
  }

  /** With a match, the count is the leading number of the leftmost one. */
  lemma NumUnfoundLeftmost(status: string, j: nat)
    requires j <= |status| && UnfoundAt(status, j)
    requires forall k :: 0 <= k < j ==> !UnfoundAt(status, k)
    ensures NumUnfound(status) == LeadingNumber(status, j)
  {
    FirstUnfoundIs(status, 0, j);
    NumUnfoundFrom(status, j);
  }

  lemma NumUnfoundFrom(status: string, j: nat)
    requires j <= |status| && FirstUnfound(status, 0) == Some(j)
    ensures NumUnfound(status) == LeadingNumber(status, j)
  {
  }

  /** The search from `i` stops at the first match. */
  lemma {:induction false} FirstUnfoundIs(s: string, i: nat, j: nat)
    requires i <= j <= |s| && UnfoundAt(s, j)
    requires forall k :: i <= k < j ==> !UnfoundAt(s, k)
    ensures FirstUnfound(s, i) == Some(j)
    decreases j - i
  {
    if i < j {
      assert !UnfoundAt(s, i);
      FirstUnfoundIs(s, i + 1, j);
    }
  }

  lemma {:induction false} DigitRunOf(a: string, b: string, i: nat)
    requires i <= |a| && AllDigits(a)
    requires |b| == 0 || !IsDigit(b[0])
    ensures DigitRun(a + b, i) == |a| - i
    decreases |a| - i
  {
    if i < |a| {
      DigitRunOf(a, b, i + 1);
    } else if |b| > 0 {
      assert (a + b)[i] == b[0];
    }
  }

  /** The count written in a health line `<n>/<m> unfound` is read back. */
  lemma UnfoundRoundTrip(n: nat, m: nat)
    ensures NumUnfound(NatToString(n) + "/" + NatToString(m) + " unfound") == n
  {
    var a := NatToString(n);
    var b := NatToString(m);
    var s := a + "/" + b + " unfound";
    UnfoundReportMatches(a, b);
    assert s[0..0 + |a|] == a;
    NumUnfoundLeftmost(s, 0);
    NatRoundTrip(n);
  }

  lemma UnfoundReportMatches(a: string, b: string)
    requires |a| > 0 && |b| > 0 && AllDigits(a) && AllDigits(b)
    ensures UnfoundAt(a + "/" + b + " unfound", 0)
    ensures DigitRun(a + "/" + b + " unfound", 0) == |a|
  {
    var s := a + "/" + b + " unfound";
    ReportFirstRun(a, b);
    ReportSecondRun(a, b);
    assert s[|a|] == '/';
    assert s[|a| + 1 + |b|..] == " unfound";
  }

  lemma ReportFirstRun(a: string, b: string)
    requires AllDigits(a)
    ensures DigitRun(a + "/" + b + " unfound", 0) == |a|
  {
    assert a + "/" + b + " unfound" == a + ("/" + b + " unfound");
    DigitRunOf(a, "/" + b + " unfound", 0);
  }

  lemma ReportSecondRun(a: string, b: string)
    requires AllDigits(b)
    ensures DigitRun(a + "/" + b + " unfound", |a| + 1) == |b|
  {
    var s := a + "/" + b + " unfound";
    assert s == (a + "/") + b + " unfound";
    DigitRunOfAt(a + "/", b, " unfound");
  }

  lemma DigitRunOfAt(pre: string, b: string, post: string)
    requires AllDigits(b) && (|post| == 0 || !IsDigit(post[0]))
    ensures DigitRun(pre + b + post, |pre|) == |b|
  {
    DigitRunShift(pre, b + post, 0);
    assert pre + b + post == pre + (b + post);
    DigitRunOf(b, post, 0);
  }

  lemma {:induction false} DigitRunShift(pre: string, t: string, i: nat)
    requires i <= |t|
    ensures DigitRun(pre + t, |pre| + i) == DigitRun(t, i)
    decreases |t| - i
  {
    if i < |t| {
      assert (pre + t)[|pre| + i] == t[i];
      DigitRunShift(pre, t, i + 1);
    }
  }
}

=== FILE: install.dfy ===
/** The decisions of the `install` task: which build to fetch (flavour and
    uri), the repository URL, the package version read from it, the pinned
    package arguments given to `apt-get install`, and which packages are
    installed versus purged. Remote commands are left out; their outputs
    (the distribution, the architecture, the replies to the version fetch)
    are inputs. */
module Install {
  import opened Wrappers
  import opened Text

  // ---------------------------------------------------------------------
  // Flavour (`task`)

  /** The `task` config keys that decide the flavour; `path`, `valgrind` and
      `coverage` are reduced to their Python truthiness. */
  datatype FlavorConfig = FlavorConfig(flavor: Option<string>, path: bool, valgrind: bool, coverage: bool)

  /** `path` forces a local build, else `valgrind` needs the notcmalloc
      build, else `coverage` needs the gcov build, else the configured
      flavour, default `basic`. */
  function Flavor(c: FlavorConfig): (f: string)
    ensures f == "local" || f == "notcmalloc" || f == "gcov" || (c.flavor.Some? && f == c.flavor.value) || f == "basic"
    ensures !c.path && !c.valgrind && c.coverage ==> f == "gcov"
    ensures !c.path && !c.valgrind && !c.coverage ==> f == c.flavor.GetOr("basic")
  {
    if c.path then "local"
    else if c.valgrind then "notcmalloc"
    else if c.coverage then "gcov"
    else c.flavor.GetOr("basic")
  }

  /** A local path overrides every other choice. */
  lemma PathWins(c: FlavorConfig, flavor: Option<string>, valgrind: bool, coverage: bool)
    requires c.path
    ensures Flavor(c) == Flavor(c.(flavor := flavor, valgrind := valgrind, coverage := coverage)) == "local"
  {
  }

  /** Without a path, valgrind beats coverage and the configured flavour. */
  lemma ValgrindBeatsCoverage(c: FlavorConfig, flavor: Option<string>, coverage: bool)
    requires !c.path && c.valgrind
    ensures Flavor(c) == Flavor(c.(flavor := flavor, coverage := coverage)) == "notcmalloc"
  {
  }

  /** Without a path or valgrind, coverage beats the configured flavour. */
  lemma CoverageBeatsConfigured(c: FlavorConfig, flavor: Option<string>)
    requires !c.path && !c.valgrind && c.coverage
    ensures Flavor(c) == Flavor(c.(flavor := flavor)) == "gcov"
  {
  }

  /** The configured flavour is used only when nothing forces another. */
  lemma ConfiguredFlavor(c: FlavorConfig)
    ensures Flavor(c) == c.flavor.GetOr("basic") <==>
              (!c.path && !c.valgrind && !c.coverage) || (c.path && c.flavor.GetOr("basic") == "local")
              || (!c.path && c.valgrind && c.flavor.GetOr("basic") == "notcmalloc")
              || (!c.path && !c.valgrind && c.coverage && c.flavor.GetOr("basic") == "gcov")
  {
  }

  // ---------------------------------------------------------------------
  // Build uri and repository URL (`_update_deb_package_list_and_install`)

  /** The build selectors of the install config; `None` is a key absent or
      set to `None` (an empty string is present). */
  datatype Selector = Selector(sha1: Option<string>, tag: Option<string>, branch: Option<string>)

  /** A parsed uri: a commit or a named ref. */
  datatype Build = Commit(sha1: string) | Ref(name: string)

  /** sha1, then tag, then branch, then `master`. */
  function Uri(sel: Selector): string {
    if sel.sha1.Some? then "sha1/" + sel.sha1.value
    else if sel.tag.Some? then "ref/" + sel.tag.value
    else if sel.branch.Some? then "ref/" + sel.branch.value
    else "ref/master"
  }

  /** Reads a uri back. */
  function ParseUri(uri: string): Option<Build> {
    if StartsWith(uri, "sha1/") then Some(Commit(uri[5..]))
    else if StartsWith(uri, "ref/") then Some(Ref(uri[4..]))
    else None
  }

  /** The uri names the highest-precedence selector given, and nothing
      else. */
  lemma UriPrecedence(sel: Selector)
    ensures ParseUri(Uri(sel)) == Some(
      if sel.sha1.Some? then Commit(sel.sha1.value)
      else if sel.tag.Some? then Ref(sel.tag.value)
      else if sel.branch.Some? then Ref(sel.branch.value)
      else Ref("master"))
  {
    var u := Uri(sel);
    if sel.sha1.Some? {
      assert u[..5] == "sha1/";
      assert u[5..] == sel.sha1.value;
    } else if sel.tag.Some? {
      assert u[..4] == "ref/";
      assert u[0] == 'r' && "sha1/"[0] == 's';
    } else if sel.branch.Some? {
      assert u[..4] == "ref/";
      assert u[0] == 'r' && "sha1/"[0] == 's';
    } else {
      assert u[..4] == "ref/";
      assert u[0] == 'r' && "sha1/"[0] == 's';
    }
  }

  /** A sha1 makes tag and branch irrelevant; a tag makes branch
      irrelevant. */
  lemma UriShadowing(sel: Selector, tag: Option<string>, branch: Option<string>)
    ensures sel.sha1.Some? ==> Uri(sel) == Uri(sel.(tag := tag, branch := branch))
    ensures sel.sha1.None? && sel.tag.Some? ==> Uri(sel) == Uri(sel.(branch := branch))
  {
  }

  /** `gitbuilder_host` of the teuthology config, default
      `gitbuilder.ceph.com`. */
  function GitbuilderHost(host: Option<string>): string {
    host.GetOr("gitbuilder.ceph.com")
  }

  /** `http://{host}/{debtype}-deb-{dist}-{arch}-{flavor}/{uri}` */
  function BaseUrl(host: Option<string>, debtype: string, dist: string, arch: string, flavor: string, uri: string): string {
    "http://" + GitbuilderHost(host) + "/" + RepoName(debtype, dist, arch, flavor) + "/" + uri
  }

  function RepoName(debtype: string, dist: string, arch: string, flavor: string): string {
    debtype + "-deb-" + dist + "-" + arch + "-" + flavor
  }

  /** When host and repository name hold no `/`, the URL's path components
      are exactly the host, the repository and the uri's own components. */
  lemma BaseUrlComponents(host: Option<string>, debtype: string, dist: string, arch: string, flavor: string, uri: string)
    requires '/' !in GitbuilderHost(host) && '/' !in RepoName(debtype, dist, arch, flavor)
    ensures SplitOn(BaseUrl(host, debtype, dist, arch, flavor, uri), '/')
            == ["http:", "", GitbuilderHost(host), RepoName(debtype, dist, arch, flavor)] + SplitOn(uri, '/')
  {
    var h := GitbuilderHost(host);
    var repo := RepoName(debtype, dist, arch, flavor);
    var t3 := repo + ['/'] + uri;
    var t2 := h + ['/'] + t3;
    var t1 := "" + ['/'] + t2;
    UrlShape(h, repo, uri);
    SplitAfter(repo, uri, '/');
    SplitAfter(h, t3, '/');
    SplitAfter("", t2, '/');
    SplitAfter("http:", t1, '/');
    var rest := SplitOn(uri, '/');
    assert ["http:"] + ([""] + ([h] + ([repo] + rest))) == ["http:", "", h, repo] + rest;
  }

  lemma UrlShape(h: string, repo: string, uri: string)
    ensures "http://" + h + "/" + repo + "/" + uri == "http:" + ['/'] + ("" + ['/'] + (h + ['/'] + (repo + ['/'] + uri)))
  {
    assert "http://" == "http:" + ['/'] + ['/'];
    assert "/" == ['/'];
  }

  /** Splitting a separator-free head off. */
  lemma {:induction false} SplitAfter(a: string, b: string, sep: char)
    requires sep !in a
    ensures SplitOn(a + [sep] + b, sep) == [a] + SplitOn(b, sep)
    decreases |a|
  {
    if |a| == 0 {
      assert a + [sep] + b == [sep] + b;
      assert ([sep] + b)[1..] == b;
    } else {
      SplitAfter(a[1..], b, sep);
      assert (a + [sep] + b)[1..] == a[1..] + [sep] + b;
      assert [a[0]] + a[1..] == a;
    }
  }

  // ---------------------------------------------------------------------
  // The version fetch

  /** Exit status and standard output of one `wget .../version`. */
  datatype Reply = Reply(status: int, stdout: string)

  datatype Fetch =
    | Fetched(version: Option<string>, tries: nat)  // the loop ended after `tries` fetches
    | FetchFailed                                     // raised on a failed fetch
    | Pending                                         // still retrying when the replies ran out

  /** Every fetch from `lo` up to, not including, `hi` failed. */
  predicate AllFailed(replies: seq<Reply>, lo: nat, hi: nat)
    requires lo <= hi <= |replies|
  {
    forall j :: lo <= j < hi ==> replies[j].status != 0
  }

  /** `while debtype == "ceph"`: fetch; on failure retry if
      `wait_for_package`, else raise; on success keep the stripped output. */
  function FetchVersion(debtype: string, waitForPackage: bool, replies: seq<Reply>): (r: Fetch)
    ensures debtype != "ceph" ==> r == Fetched(None, 0)
    ensures debtype == "ceph" && r.Fetched? ==>
              0 < r.tries <= |replies| && replies[r.tries - 1].status == 0
              && r.version == Some(Strip(replies[r.tries - 1].stdout))
              && AllFailed(replies, 0, r.tries - 1)
    ensures r.FetchFailed? <==> debtype == "ceph" && !waitForPackage && |replies| > 0 && replies[0].status != 0
    ensures r.Pending? ==> debtype == "ceph" && AllFailed(replies, 0, |replies|)
  {
    if debtype != "ceph" then Fetched(None, 0)
    else if !waitForPackage && |replies| > 0 && replies[0].status != 0 then FetchFailed
    else
      match FirstSuccess(replies, 0)
      case None => Pending
      case Some(k) => Fetched(Some(Strip(replies[k].stdout)), k + 1)
  }

  /** The loop from fetch `i` on, once a failure can only mean a retry
      (`wait_for_package` is set, or no fetch has failed yet): the index
      of the first successful fetch. */
  function FirstSuccess(replies: seq<Reply>, i: nat): (r: Option<nat>)
    requires i <= |replies|
    ensures r.Some? ==> i <= r.value < |replies| && replies[r.value].status == 0
    ensures r.Some? ==> AllFailed(replies, i, r.value)
    ensures r.None? ==> AllFailed(replies, i, |replies|)
    decreases |replies| - i
  {
    if i == |replies| then None
    else if replies[i].status != 0 then FirstSuccess(replies, i + 1)
    else Some(i)
  }

  /** Waiting for the package turns every failure into a retry. */
  lemma WaitNeverRaises(debtype: string, replies: seq<Reply>)
    ensures !FetchVersion(debtype, true, replies).FetchFailed?
  {
  }

  // ---------------------------------------------------------------------
  // Package pins

  /** `'%s=%s' % (d, version)` for each package, or `'%s=' % d` when no
      version was fetched. */
  function Pins(debs: seq<string>, version: Option<string>): (r: seq<string>)
    ensures |r| == |debs|
    ensures forall i :: 0 <= i < |r| ==> StartsWith(r[i], debs[i]) && |r[i]| > |debs[i]| && r[i][|debs[i]|] == '='
  {
    seq(|debs|, i requires 0 <= i < |debs| => debs[i] + "=" + version.GetOr(""))
  }

  /** Splitting each pin at `=` gives back the package and the version,
      when neither holds an `=`. */
  lemma PinsRoundTrip(debs: seq<string>, version: Option<string>, i: nat)
    requires i < |debs| && '=' !in debs[i] && '=' !in version.GetOr("")
    ensures SplitOn(Pins(debs, version)[i], '=') == [debs[i], version.GetOr("")]
  {
    var v := version.GetOr("");
    assert Pins(debs, version)[i] == debs[i] + ['='] + v;
    SplitAfter(debs[i], v, '=');
    NoSepSplit(v, '=');
  }

  /** A string without the separator splits into itself. */
  lemma {:induction false} NoSepSplit(s: string, sep: char)
    requires sep !in s
    ensures SplitOn(s, sep) == [s]
    decreases |s|
  {
    if |s| > 0 {
      NoSepSplit(s[1..], sep);
      assert [s[0]] + s[1..] == s;
    }
  }

  // ---------------------------------------------------------------------
  // Package lists (`install`)

  const BaseDebs: seq<string> := [
    "ceph", "ceph-dbg", "ceph-mds", "ceph-mds-dbg", "ceph-common", "ceph-common-dbg",
    "ceph-fuse", "ceph-fuse-dbg", "ceph-test", "ceph-test-dbg", "radosgw", "radosgw-dbg",
    "python-ceph", "libcephfs1", "libcephfs1-dbg", "libcephfs-java"]

  /** Library packages installed with an explicit version but never purged,
      because other packages depend on them. */
  const LibDebs: seq<string> := ["librados2", "librados2-dbg", "librbd1", "librbd1-dbg"]

  /** What `install` installs and what it purges afterwards. */
  datatype Plan = Plan(installed: seq<string>, purged: seq<string>)

  /** `debs + extra_debs`, then `debs_install = debs + libs`; an
      `extra_packages` of `None` makes `debs + None` raise. */
  function PackagePlan(extra: Option<seq<string>>): (r: Result<Plan, string>)
    ensures r.Err? <==> extra.None?
    ensures r.Ok? ==> r.value.installed == r.value.purged + LibDebs
    ensures r.Ok? ==> |r.value.purged| == |BaseDebs| + |extra.value|
    ensures r.Ok? ==> r.value.purged[..|BaseDebs|] == BaseDebs && r.value.purged[|BaseDebs|..] == extra.value
  {
    match extra
    case None => Err("TypeError: can only concatenate list (not \"NoneType\") to list")
    case Some(e) =>
      var debs := BaseDebs + e;
      Ok(Plan(debs + LibDebs, debs))
  }

  /** A library package is never purged unless it was also asked for as an
      extra package. */
  lemma LibsNeverPurged(extra: seq<string>, lib: string)
    requires lib in LibDebs && lib !in extra
    ensures PackagePlan(Some(extra)).Ok?
    ensures lib in PackagePlan(Some(extra)).value.installed
    ensures lib !in PackagePlan(Some(extra)).value.purged
  {
    var p := PackagePlan(Some(extra)).value;
    assert p.installed[|p.purged| + LibIndex(lib)] == lib;
    LibNotBase(lib);
  }

  /** No library package is a base package: their fourth letters differ. */
  lemma LibNotBase(lib: string)
    requires lib in LibDebs
    ensures lib !in BaseDebs
  {
    var i := LibIndex(lib);
    assert lib[3] == 'r';
    forall j | 0 <= j < |BaseDebs|
      ensures BaseDebs[j] != lib
    {
      assert BaseDebs[j][3] != 'r';
    }
  }

  function LibIndex(lib: string): (i: nat)
    requires lib in LibDebs
    ensures i < |LibDebs| && LibDebs[i] == lib
  {
    if lib == LibDebs[0] then 0
    else if lib == LibDebs[1] then 1
    else if lib == LibDebs[2] then 2
    else 3
  }
}

=== FILE: membership.dfy ===
/** The membership bookkeeping of `Thrasher`: four lists of OSD ids, two per
    axis (admission: in/out; liveness: live/dead), and the five actions that
    move one id between the two lists of one axis while telling the cluster
    what was done. `random.choice` becomes an explicit draw; the cluster calls
    become the commands an action issues; a Python exception becomes a
    `Failure` that records the lists and commands as they stood when it was
    raised. */
module Membership {
  import opened Wrappers

  datatype Osds = Osds(inOsds: seq<int>, outOsds: seq<int>, liveOsds: seq<int>, deadOsds: seq<int>)

  /** The `CephManager` call an action makes. */
  datatype Cmd =
    | MarkOut(osd: int)        // `ceph osd out <id>`
    | MarkIn(osd: int)         // `ceph osd in <id>`
    | Stop(osd: int)           // stop the daemon
    | BlackholeStop(osd: int)  // inject `--filestore-blackhole`, then stop the daemon
    | Restart(osd: int)        // restart the daemon

  /** `random.choice([])` raises IndexError; `list.remove(x)` raises
      ValueError when `x` is absent. */
  datatype Fault = EmptyChoice | NotListed(osd: int)

  /** An action that completed: the id it acted on, the new lists, the
      commands issued. */
  datatype Step = Step(osd: int, osds: Osds, cmds: seq<Cmd>)

  /** An action that raised: the lists and commands as left at that point. */
  datatype Failure = Failure(fault: Fault, osds: Osds, cmds: seq<Cmd>)

  type Outcome = Result<Step, Failure>

  /** Position of the first occurrence of `x`. */
  function FirstIndex(xs: seq<int>, x: int): (i: nat)
    requires x in xs
    ensures i < |xs| && xs[i] == x && x !in xs[..i]
  {
    if xs[0] == x then 0
    else
      var j := FirstIndex(xs[1..], x);
      assert xs[..j + 1] == [xs[0]] + xs[1..][..j];
      j + 1
  }

  /** `list.remove(x)`: drop the first occurrence of `x`. */
  function Remove(xs: seq<int>, x: int): (r: seq<int>)
    requires x in xs
    ensures |r| == |xs| - 1
    ensures multiset(r) == multiset(xs) - multiset{x}
    ensures exists i :: 0 <= i < |xs| && xs[i] == x && x !in xs[..i] && r == xs[..i] + xs[i + 1..]
  {
    var i := FirstIndex(xs, x);
    assert xs == xs[..i] + [x] + xs[i + 1..];
    xs[..i] + xs[i + 1..]
  }

  /** Removing an id that was only just appended gives back the list. */
  lemma RemoveAppended(xs: seq<int>, x: int)
    requires x !in xs
    ensures Remove(xs + [x], x) == xs
  {
    assert (xs + [x])[..|xs|] == xs;
  }

  /** The id an action works on: the explicit argument, or `random.choice`
      over `xs` with the draw selecting the index. */
  function Pick(xs: seq<int>, target: Option<int>, draw: nat): (r: Result<int, Fault>)
    ensures r.Err? <==> target.None? && |xs| == 0
    ensures r.Err? ==> r.error == EmptyChoice
    ensures r.Ok? && target.Some? ==> r.value == target.value
    ensures r.Ok? && target.None? ==> r.value in xs
  {
    match target
    case Some(x) => Ok(x)
    case None => if |xs| == 0 then Err(EmptyChoice) else Ok(xs[draw % |xs|])
  }

  /** `x` left list `a` (one occurrence) and was appended to list `b`. */
  ghost predicate MovedTo(a: seq<int>, b: seq<int>, a2: seq<int>, b2: seq<int>, x: int) {
    x in a && |a2| == |a| - 1 && multiset(a2) == multiset(a) - multiset{x} && b2 == b + [x]
  }

  /** The action fails exactly when there is nothing to pick from, or the
      explicit id is not in the list it must leave. */
  ghost predicate FailsOn(xs: seq<int>, target: Option<int>) {
    (target.None? && |xs| == 0) || (target.Some? && target.value !in xs)
  }

  /** Shared body of `kill_osd` and `blackhole_kill_osd`. */
  function StopOsd(s: Osds, target: Option<int>, draw: nat, blackhole: bool): (r: Outcome)
    ensures r.Err? <==> FailsOn(s.liveOsds, target)
    ensures r.Err? ==> r.error.osds == s && r.error.cmds == []
    ensures r.Ok? ==> var t := r.value.osds;
      MovedTo(s.liveOsds, s.deadOsds, t.liveOsds, t.deadOsds, r.value.osd)
      && t.inOsds == s.inOsds && t.outOsds == s.outOsds
      && r.value.cmds == [if blackhole then BlackholeStop(r.value.osd) else Stop(r.value.osd)]
      && (target.Some? ==> r.value.osd == target.value)
  {
    match Pick(s.liveOsds, target, draw)
    case Err(f) => Err(Failure(f, s, []))
    case Ok(osd) =>
      if osd !in s.liveOsds then Err(Failure(NotListed(osd), s, []))
      else
        var t := s.(liveOsds := Remove(s.liveOsds, osd), deadOsds := s.deadOsds + [osd]);
        Ok(Step(osd, t, [if blackhole then BlackholeStop(osd) else Stop(osd)]))
  }

  /** `kill_osd(osd=None)` */
  function Kill(s: Osds, target: Option<int>, draw: nat): (r: Outcome)
    ensures r.Ok? ==> r.value.cmds == [Stop(r.value.osd)]
  {
    StopOsd(s, target, draw, false)
  }

  /** `blackhole_kill_osd(osd=None)` */
  function BlackholeKill(s: Osds, target: Option<int>, draw: nat): (r: Outcome)
    ensures r.Ok? ==> r.value.cmds == [BlackholeStop(r.value.osd)]
  {
    StopOsd(s, target, draw, true)
  }

  /** `revive_osd(osd=None)`: the id is appended to the live list before it
      is removed from the dead list, so when the removal raises, the live
      list already holds it. */
  function Revive(s: Osds, target: Option<int>, draw: nat): (r: Outcome)
    ensures r.Err? <==> FailsOn(s.deadOsds, target)
    ensures r.Err? && target.Some? ==>
              r.error == Failure(NotListed(target.value), s.(liveOsds := s.liveOsds + [target.value]), [])
    ensures r.Err? && target.None? ==> r.error == Failure(EmptyChoice, s, [])
    ensures r.Ok? ==> var t := r.value.osds;
      MovedTo(s.deadOsds, s.liveOsds, t.deadOsds, t.liveOsds, r.value.osd)
      && t.inOsds == s.inOsds && t.outOsds == s.outOsds
      && r.value.cmds == [Restart(r.value.osd)]
      && (target.Some? ==> r.value.osd == target.value)
  {
    match Pick(s.deadOsds, target, draw)
    case Err(f) => Err(Failure(f, s, []))
    case Ok(osd) =>
      var appended := s.(liveOsds := s.liveOsds + [osd]);
      if osd !in s.deadOsds then Err(Failure(NotListed(osd), appended, []))
      else Ok(Step(osd, appended.(deadOsds := Remove(s.deadOsds, osd)), [Restart(osd)]))
  }

  /** `out_osd(osd=None)`: the cluster is told to mark the id out before the
      id is removed from the in list, so when the removal raises the command
      has already been issued. */
  function Out(s: Osds, target: Option<int>, draw: nat): (r: Outcome)
    ensures r.Err? <==> FailsOn(s.inOsds, target)
    ensures r.Err? && target.Some? ==> r.error == Failure(NotListed(target.value), s, [MarkOut(target.value)])
    ensures r.Err? && target.None? ==> r.error == Failure(EmptyChoice, s, [])
    ensures r.Ok? ==> var t := r.value.osds;
      MovedTo(s.inOsds, s.outOsds, t.inOsds, t.outOsds, r.value.osd)
      && t.liveOsds == s.liveOsds && t.deadOsds == s.deadOsds
      && r.value.cmds == [MarkOut(r.value.osd)]
      && (target.Some? ==> r.value.osd == target.value)
  {
    match Pick(s.inOsds, target, draw)
    case Err(f) => Err(Failure(f, s, []))
    case Ok(osd) =>
      if osd !in s.inOsds then Err(Failure(NotListed(osd), s, [MarkOut(osd)]))
      else Ok(Step(osd, s.(inOsds := Remove(s.inOsds, osd), outOsds := s.outOsds + [osd]), [MarkOut(osd)]))
  }

  /** `in_osd(osd=None)`: a dead id is revived instead (and stays out);
      otherwise the id moves from the out list to the in list and the
      cluster is told to mark it in. */
  function In(s: Osds, target: Option<int>, draw: nat): (r: Outcome)
    ensures r.Ok? && r.value.osd !in s.deadOsds ==> var t := r.value.osds;
      MovedTo(s.outOsds, s.inOsds, t.outOsds, t.inOsds, r.value.osd)
      && t.liveOsds == s.liveOsds && t.deadOsds == s.deadOsds
      && r.value.cmds == [MarkIn(r.value.osd)]
    ensures r.Ok? && r.value.osd in s.deadOsds ==> var t := r.value.osds;
      MovedTo(s.deadOsds, s.liveOsds, t.deadOsds, t.liveOsds, r.value.osd)
      && t.inOsds == s.inOsds && t.outOsds == s.outOsds
      && r.value.cmds == [Restart(r.value.osd)]
    ensures r.Ok? && target.Some? ==> r.value.osd == target.value
    ensures target.None? ==> (r.Err? <==> |s.outOsds| == 0)
    ensures target.Some? ==> (r.Err? <==> target.value !in s.outOsds && target.value !in s.deadOsds)
    ensures r.Err? ==> r.error.osds == s && r.error.cmds == []
  {
    match Pick(s.outOsds, target, draw)
    case Err(f) => Err(Failure(f, s, []))
    case Ok(osd) =>
      if osd in s.deadOsds then Revive(s, Some(osd), draw)
      else if osd !in s.outOsds then Err(Failure(NotListed(osd), s, []))
      else Ok(Step(osd, s.(outOsds := Remove(s.outOsds, osd), inOsds := s.inOsds + [osd]), [MarkIn(osd)]))
  }

  // ---------------------------------------------------------------------
  // The two partitions

  /** Every id occurs at most once in `m`. */
  ghost predicate Distinct(m: multiset<int>) {
    forall x :: m[x] <= 1
  }

  /** The ids the admission axis accounts for. */
  ghost function Admitted(s: Osds): multiset<int> {
    multiset(s.inOsds) + multiset(s.outOsds)
  }

  /** The ids the liveness axis accounts for. */
  ghost function Running(s: Osds): multiset<int> {
    multiset(s.liveOsds) + multiset(s.deadOsds)
  }

  /** Both axes partition the same set of ids: each id is in exactly one of
      in/out and exactly one of live/dead. The initial snapshot taken from
      `get_osd_status` is assumed, not checked, to be like this. */
  ghost predicate Valid(s: Osds) {
    Admitted(s) == Running(s) && Distinct(Admitted(s))
  }

  /** Moving one id between the two lists of an axis keeps the axis' ids. */
  lemma MovedKeeps(a: seq<int>, b: seq<int>, a2: seq<int>, b2: seq<int>, x: int)
    requires MovedTo(a, b, a2, b2, x)
    ensures multiset(a2) + multiset(b2) == multiset(a) + multiset(b)
  {
    assert multiset(b2) == multiset(b) + multiset{x};
    assert multiset(a) == multiset(a2) + multiset{x};
  }

  /** A completed action keeps both axes' ids, and so both partitions. */
  lemma OutcomeKeeps(s: Osds, r: Outcome)
    requires r.Ok? ==> var t := r.value.osds; var x := r.value.osd;
      (MovedTo(s.liveOsds, s.deadOsds, t.liveOsds, t.deadOsds, x) && t.inOsds == s.inOsds && t.outOsds == s.outOsds)
      || (MovedTo(s.deadOsds, s.liveOsds, t.deadOsds, t.liveOsds, x) && t.inOsds == s.inOsds && t.outOsds == s.outOsds)
      || (MovedTo(s.inOsds, s.outOsds, t.inOsds, t.outOsds, x) && t.liveOsds == s.liveOsds && t.deadOsds == s.deadOsds)
      || (MovedTo(s.outOsds, s.inOsds, t.outOsds, t.inOsds, x) && t.liveOsds == s.liveOsds && t.deadOsds == s.deadOsds)
    ensures r.Ok? ==> Admitted(r.value.osds) == Admitted(s) && Running(r.value.osds) == Running(s)
    ensures r.Ok? && Valid(s) ==> Valid(r.value.osds)
  {
    if r.Ok? {
      var t := r.value.osds;
      var x := r.value.osd;
      if MovedTo(s.liveOsds, s.deadOsds, t.liveOsds, t.deadOsds, x) && t.inOsds == s.inOsds && t.outOsds == s.outOsds {
        MovedKeeps(s.liveOsds, s.deadOsds, t.liveOsds, t.deadOsds, x);
        SameAxes(s, t);
      } else if MovedTo(s.deadOsds, s.liveOsds, t.deadOsds, t.liveOsds, x) && t.inOsds == s.inOsds && t.outOsds == s.outOsds {
        MovedKeeps(s.deadOsds, s.liveOsds, t.deadOsds, t.liveOsds, x);
        assert Running(t) == multiset(t.deadOsds) + multiset(t.liveOsds);
        SameAxes(s, t);
      } else if MovedTo(s.inOsds, s.outOsds, t.inOsds, t.outOsds, x) && t.liveOsds == s.liveOsds && t.deadOsds == s.deadOsds {
        MovedKeeps(s.inOsds, s.outOsds, t.inOsds, t.outOsds, x);
        SameAxes(s, t);
      } else {
        MovedKeeps(s.outOsds, s.inOsds, t.outOsds, t.inOsds, x);
        assert Admitted(t) == multiset(t.outOsds) + multiset(t.inOsds);
        SameAxes(s, t);
      }
    }
  }

  /** States whose axes account for the same ids are valid together. */
  lemma SameAxes(s: Osds, t: Osds)
    requires Admitted(t) == Admitted(s) && Running(t) == Running(s)
    ensures Valid(s) ==> Valid(t)
  {
  }

  /** Every completed action preserves the two partitions. */
  lemma ActionsPreserveValid(s: Osds, target: Option<int>, draw: nat)
    ensures var r := Kill(s, target, draw); r.Ok? && Valid(s) ==> Valid(r.value.osds)
    ensures var r := BlackholeKill(s, target, draw); r.Ok? && Valid(s) ==> Valid(r.value.osds)
    ensures var r := Revive(s, target, draw); r.Ok? && Valid(s) ==> Valid(r.value.osds)
    ensures var r := Out(s, target, draw); r.Ok? && Valid(s) ==> Valid(r.value.osds)
    ensures var r := In(s, target, draw); r.Ok? && Valid(s) ==> Valid(r.value.osds)
  {
    OutcomeKeeps(s, Kill(s, target, draw));
    OutcomeKeeps(s, BlackholeKill(s, target, draw));
    OutcomeKeeps(s, Revive(s, target, draw));
    OutcomeKeeps(s, Out(s, target, draw));
    var r := In(s, target, draw);
    if r.Ok? && r.value.osd in s.deadOsds {
      OutcomeKeeps(s, r);
    } else {
      OutcomeKeeps(s, r);
    }
  }

  /** In a valid state an id in one list of an axis is not in the other. */
  lemma ValidExclusive(s: Osds, x: int)
    requires Valid(s)
    ensures x in s.inOsds ==> x !in s.outOsds
    ensures x in s.liveOsds ==> x !in s.deadOsds
  {
    assert Admitted(s)[x] <= 1;
  }

  /** Reviving the id just killed restores the dead list exactly and the
      live list up to order. */
  lemma KillThenRevive(s: Osds, x: int, d1: nat, d2: nat)
    requires Valid(s) && x in s.liveOsds
    ensures Kill(s, Some(x), d1).Ok?
    ensures var t := Kill(s, Some(x), d1).value.osds;
      var u := Revive(t, Some(x), d2);
      u.Ok? && u.value.osds.deadOsds == s.deadOsds && multiset(u.value.osds.liveOsds) == multiset(s.liveOsds)
      && u.value.osds.inOsds == s.inOsds && u.value.osds.outOsds == s.outOsds
  {
    ValidExclusive(s, x);
    RemoveAppended(s.deadOsds, x);
  }

  /** Marking in the id just marked out (a live one) restores the out list
      exactly and the in list up to order. */
  lemma OutThenIn(s: Osds, x: int, d1: nat, d2: nat)
    requires Valid(s) && x in s.inOsds && x in s.liveOsds
    ensures Out(s, Some(x), d1).Ok?
    ensures var t := Out(s, Some(x), d1).value.osds;
      var u := In(t, Some(x), d2);
      u.Ok? && u.value.osds.outOsds == s.outOsds && multiset(u.value.osds.inOsds) == multiset(s.inOsds)
      && u.value.osds.liveOsds == s.liveOsds && u.value.osds.deadOsds == s.deadOsds
      && u.value.cmds == [MarkIn(x)]
  {
    ValidExclusive(s, x);
    RemoveAppended(s.outOsds, x);
  }

  /** `in_osd` on a dead id is `revive_osd` on it: the id becomes live and
      its admission is untouched, so an out id stays out. */
  lemma InOnDeadRevives(s: Osds, x: int, draw: nat)
    requires x in s.deadOsds
    ensures In(s, Some(x), draw) == Revive(s, Some(x), draw)
    ensures var r := In(s, Some(x), draw);
      r.Ok? && x in r.value.osds.liveOsds && r.value.osds.outOsds == s.outOsds && r.value.osds.inOsds == s.inOsds
  {
  }

  // ---------------------------------------------------------------------
  // The actions `choose_action` can return

  datatype Action = OutOsd | KillOsd | InOsd | ReviveOsd

  /** Call the chosen bound method with no argument. */
  function Apply(a: Action, s: Osds, draw: nat): (r: Outcome)
    ensures a == OutOsd ==> (r.Err? <==> |s.inOsds| == 0)
    ensures a == KillOsd ==> (r.Err? <==> |s.liveOsds| == 0)
    ensures a == InOsd ==> (r.Err? <==> |s.outOsds| == 0)
    ensures a == ReviveOsd ==> (r.Err? <==> |s.deadOsds| == 0)
    ensures Valid(s) && r.Ok? ==> Valid(r.value.osds)
  {
    ActionsPreserveValid(s, None, draw);
    match a
    case OutOsd => Out(s, None, draw)
    case KillOsd => Kill(s, None, draw)
    case InOsd => In(s, None, draw)
    case ReviveOsd => Revive(s, None, draw)
  }
}

=== FILE: rgw.dfy ===
/** The `rgw` task: normalising its config to a dict from client role to
    per-client config, refusing two rgw clients on one host, and assembling
    the radosgw command line for each client. Directory creation, the
    Apache setup and running the daemons are left out. `get_valgrind_args`
    is not part of this model: its result is a function given as a
    parameter. */
module Rgw {
  import opened Wrappers
  import opened Text

  /** A per-client config dict; only its `valgrind` entry is read here. */
  datatype ClientConfig = ClientConfig(valgrind: Option<seq<string>>)

  /** The task config as written in the job: absent, a list of client
      names, or a dict from client name to per-client config (or `None`). */
  datatype RgwConfig =
    | NoConfig
    | Names(names: seq<string>)
    | PerClient(clients: map<string, Option<ClientConfig>>)

  type Clients = map<string, Option<ClientConfig>>

  const ClientPrefix := "client."

  /** `task`: `None` means every client role of the cluster, a list means
      each name listed, each with no per-client config. */
  function Normalize(cfg: RgwConfig, clientIds: seq<string>): (r: Clients)
    ensures cfg.NoConfig? ==> r.Keys == set i | 0 <= i < |clientIds| :: ClientPrefix + clientIds[i]
    ensures cfg.Names? ==> r.Keys == set i | 0 <= i < |cfg.names| :: cfg.names[i]
    ensures !cfg.PerClient? ==> forall k :: k in r ==> r[k].None?
  {
    match cfg
    case NoConfig => map i | 0 <= i < |clientIds| :: ClientPrefix + clientIds[i] := None
    case Names(ns) => map i | 0 <= i < |ns| :: ns[i] := None
    case PerClient(m) => m
  }

  /** With no config every key is a client role whose id can be read back,
      and every client of the cluster has a key. */
  lemma NormalizeAllClients(clientIds: seq<string>, k: string)
    ensures k in Normalize(NoConfig, clientIds) <==> StartsWith(k, ClientPrefix) && k[|ClientPrefix|..] in clientIds
  {
    if StartsWith(k, ClientPrefix) && k[|ClientPrefix|..] in clientIds {
      var i :| 0 <= i < |clientIds| && clientIds[i] == k[|ClientPrefix|..];
      assert k == ClientPrefix + clientIds[i];
    }
    if k in Normalize(NoConfig, clientIds) {
      var i :| 0 <= i < |clientIds| && k == ClientPrefix + clientIds[i];
      assert k[..|ClientPrefix|] == ClientPrefix;
      assert k[|ClientPrefix|..] == clientIds[i];
    }
  }

  /** A dict config is kept as written. */
  lemma NormalizeKeepsDict(m: Clients, clientIds: seq<string>)
    ensures Normalize(PerClient(m), clientIds) == m
  {
  }

  // ---------------------------------------------------------------------
  // One rgw per host

  /** The inner loop over one host's roles, with the `running_rgw` flag. */
  function HostAccepts(roles: seq<string>, keys: set<string>, running: bool): bool
    decreases |roles|
  {
    if |roles| == 0 then true
    else if roles[0] in keys then !running && HostAccepts(roles[1..], keys, true)
    else HostAccepts(roles[1..], keys, running)
  }

  /** How many of a host's roles (with repetition) are configured clients. */
  function CountIn(roles: seq<string>, keys: set<string>): nat
    decreases |roles|
  {
    if |roles| == 0 then 0 else (if roles[0] in keys then 1 else 0) + CountIn(roles[1..], keys)
  }

  /** The loop rejects exactly when the flag and the configured roles
      still to come reach two. */
  lemma {:induction false} HostAcceptsCount(roles: seq<string>, keys: set<string>, running: bool)
    ensures HostAccepts(roles, keys, running) <==> (if running then 1 else 0) + CountIn(roles, keys) < 2
    decreases |roles|
  {
    if |roles| > 0 {
      HostAcceptsCount(roles[1..], keys, roles[0] in keys || running);
    }
  }

  /** Two configured roles means two positions holding them. */
  lemma {:induction false} CountTwo(roles: seq<string>, keys: set<string>)
    ensures CountIn(roles, keys) >= 2 <==>
              exists i, j :: 0 <= i < j < |roles| && roles[i] in keys && roles[j] in keys
    decreases |roles|
  {
    if |roles| > 0 {
      var tl := roles[1..];
      CountTwo(tl, keys);
      CountOne(tl, keys);
      if CountIn(roles, keys) >= 2 {
        if roles[0] in keys {
          var j :| 0 <= j < |tl| && tl[j] in keys;
          assert roles[j + 1] in keys;
        } else {
          var i, j :| 0 <= i < j < |tl| && tl[i] in keys && tl[j] in keys;
          assert roles[i + 1] in keys && roles[j + 1] in keys;
        }
      }
      if exists i, j :: 0 <= i < j < |roles| && roles[i] in keys && roles[j] in keys {
        var i, j :| 0 <= i < j < |roles| && roles[i] in keys && roles[j] in keys;
        if i == 0 {
          assert tl[j - 1] in keys;
        } else {
          assert tl[i - 1] in keys && tl[j - 1] in keys;
        }
      }
    }
  }

  lemma {:induction false} CountOne(roles: seq<string>, keys: set<string>)
    ensures CountIn(roles, keys) >= 1 <==> exists j :: 0 <= j < |roles| && roles[j] in keys
    decreases |roles|
  {
    if |roles| > 0 {
      CountOne(roles[1..], keys);
      if exists j :: 0 <= j < |roles| && roles[j] in keys {
        var j :| 0 <= j < |roles| && roles[j] in keys;
        if j > 0 {
          assert roles[1..][j - 1] in keys;
        }
      }
      if exists j :: 0 <= j < |roles[1..]| && roles[1..][j] in keys {
        var j :| 0 <= j < |roles[1..]| && roles[1..][j] in keys;
        assert roles[j + 1] in keys;
      }
    }
  }

  /** Two positions of one host's role list naming configured clients. */
  ghost predicate TwoOnHost(roles: seq<string>, keys: set<string>) {
    exists i, j :: 0 <= i < j < |roles| && roles[i] in keys && roles[j] in keys
  }

  /** The assertion message of the host check. */
  const OneClientPerHost := "Only one client per host can run rgw."

  /** `(remote,) = ctx.cluster.only(client).remotes.keys()` raises when the
      client role is on no host or on several. */
  const NotOneRemote := "ValueError: a client role must be on exactly one host"

  /** The number of hosts whose role list holds `role`: the size of
      `ctx.cluster.only(role).remotes`. */
  function HostCount(hosts: seq<seq<string>>, role: string): (n: nat)
    ensures n <= |hosts|
    decreases |hosts|
  {
    if |hosts| == 0 then 0
    else (if role in hosts[0] then 1 else 0) + HostCount(hosts[1..], role)
  }

  /** The hosts from `lo` on whose role list holds `role`. */
  ghost function HostsWith(hosts: seq<seq<string>>, role: string, lo: nat): set<int> {
    set h | lo <= h < |hosts| && role in hosts[h]
  }

  /** The count is the number of hosts holding the role. */
  lemma HostCountIsSize(hosts: seq<seq<string>>, role: string)
    ensures HostCount(hosts, role) == |HostsWith(hosts, role, 0)|
  {
    HostCountFrom(hosts, role, 0);
    assert hosts[0..] == hosts;
  }

  lemma {:induction false} HostCountFrom(hosts: seq<seq<string>>, role: string, lo: nat)
    requires lo <= |hosts|
    ensures HostCount(hosts[lo..], role) == |HostsWith(hosts, role, lo)|
    decreases |hosts| - lo
  {
    if lo == |hosts| {
      assert HostsWith(hosts, role, lo) == {};
    } else {
      HostCountFrom(hosts, role, lo + 1);
      assert hosts[lo..][1..] == hosts[lo + 1..];
      var later := HostsWith(hosts, role, lo + 1);
      assert lo !in later;
      if role in hosts[lo] {
        assert HostsWith(hosts, role, lo) == later + {lo};
      } else {
        assert HostsWith(hosts, role, lo) == later;
      }
    }
  }

  /** The outer loop over hosts: the assertion fails on the first host
      that would run two rgw clients. */
  function OnePerHost(hosts: seq<seq<string>>, keys: set<string>): (r: Result<(), string>)
    ensures r.Err? <==> exists h :: 0 <= h < |hosts| && TwoOnHost(hosts[h], keys)
    ensures r.Err? ==> r.error == OneClientPerHost
    decreases |hosts|
  {
    if |hosts| == 0 then Ok(())
    else
      HostAcceptsCount(hosts[0], keys, false);
      CountTwo(hosts[0], keys);
      if !HostAccepts(hosts[0], keys, false) then Err(OneClientPerHost)
      else
        var rest := OnePerHost(hosts[1..], keys);
        assert forall h :: 0 < h < |hosts| ==> hosts[h] == hosts[1..][h - 1];
        rest
  }

  // ---------------------------------------------------------------------
  // The radosgw command line

  /** An argument of a remote command: quoted, or passed raw to the
      shell. */
  datatype Arg = Lit(s: string) | Raw(s: string)

  function Prefix(testdir: string): seq<Arg> {
    [Lit(testdir + "/enable-coredump"), Lit("ceph-coverage"), Lit(testdir + "/archive/coverage"),
     Lit(testdir + "/daemon-helper"), Lit("term")]
  }

  function Tail(testdir: string): seq<Arg> {
    [Lit("radosgw"),
     Lit("--log-file"), Lit(testdir + "/archive/log/rgw.log"),
     Lit("--rgw_ops_log_socket_path"), Lit(testdir + "/rgw.opslog.sock"),
     Lit(testdir + "/apache/apache.conf"),
     Lit("--foreground"),
     Raw(">"), Lit(testdir + "/archive/log/rgw.stdout"), Raw("2>&1")]
  }

  /** `start_rgw` for one client: a `None` per-client config reads as `{}`;
      `valgrindArgs` stands for `get_valgrind_args(testdir, client, v)`. */
  function RunCmd(testdir: string, client: string, cfg: Option<ClientConfig>,
                  valgrindArgs: (string, string, Option<seq<string>>) -> seq<Arg>): (cmd: seq<Arg>)
    ensures |cmd| == 15 + |valgrindArgs(testdir, client, cfg.GetOr(ClientConfig(None)).valgrind)|
  {
    var cc := cfg.GetOr(ClientConfig(None));
    Prefix(testdir) + valgrindArgs(testdir, client, cc.valgrind) + Tail(testdir)
  }

  predicate NoRaw(args: seq<Arg>) {
    forall i :: 0 <= i < |args| ==> args[i].Lit?
  }

  /** The command splits into the daemon-helper prefix, the valgrind
      arguments and the radosgw tail; when the valgrind arguments are all
      quoted, the only raw arguments are the two redirections, third-last
      and last, so radosgw's output goes to the archive log. */
  lemma RunCmdLayout(testdir: string, client: string, cfg: Option<ClientConfig>,
                     valgrindArgs: (string, string, Option<seq<string>>) -> seq<Arg>)
    ensures var cmd := RunCmd(testdir, client, cfg, valgrindArgs);
      var v := valgrindArgs(testdir, client, cfg.GetOr(ClientConfig(None)).valgrind);
      cmd[..5] == Prefix(testdir) && cmd[5..5 + |v|] == v && cmd[5 + |v|..] == Tail(testdir)
    ensures var cmd := RunCmd(testdir, client, cfg, valgrindArgs);
      var v := valgrindArgs(testdir, client, cfg.GetOr(ClientConfig(None)).valgrind);
      NoRaw(v) ==> forall i :: 0 <= i < |cmd| ==> (cmd[i].Raw? <==> i == |cmd| - 3 || i == |cmd| - 1)
    ensures var cmd := RunCmd(testdir, client, cfg, valgrindArgs);
      cmd[|cmd| - 3] == Raw(">") && cmd[|cmd| - 2] == Lit(testdir + "/archive/log/rgw.stdout")
  {
    var cmd := RunCmd(testdir, client, cfg, valgrindArgs);
    var v := valgrindArgs(testdir, client, cfg.GetOr(ClientConfig(None)).valgrind);
    assert cmd == Prefix(testdir) + v + Tail(testdir);
    if NoRaw(v) {
      forall i | 0 <= i < |cmd|
        ensures cmd[i].Raw? <==> i == |cmd| - 3 || i == |cmd| - 1
      {
        if i < 5 {
          assert cmd[i] == Prefix(testdir)[i];
        } else if i < 5 + |v| {
          assert cmd[i] == v[i - 5];
        } else {
          assert cmd[i] == Tail(testdir)[i - 5 - |v|];
        }
      }
    }
  }

  /** A client listed with no config starts exactly like one with an empty
      config. */
  lemma NoneConfigIsEmpty(testdir: string, client: string,
                          valgrindArgs: (string, string, Option<seq<string>>) -> seq<Arg>)
    ensures RunCmd(testdir, client, None, valgrindArgs) == RunCmd(testdir, client, Some(ClientConfig(None)), valgrindArgs)
  {
  }

  /** The rgw task up to starting the daemons, with `ship_config` reading
      the template before formatting it (`TaskAsWritten` is the code as it
      stands): the command of every configured client, or the failed host
      check, or the failed unpacking of a client's single remote in
      `ship_config`. */
  function Task(cfg: RgwConfig, clientIds: seq<string>, hosts: seq<seq<string>>, testdir: string,
                valgrindArgs: (string, string, Option<seq<string>>) -> seq<Arg>): (r: Result<map<string, seq<Arg>>, string>)
    ensures r == Err(OneClientPerHost) <==> exists h :: 0 <= h < |hosts| && TwoOnHost(hosts[h], Normalize(cfg, clientIds).Keys)
    ensures r == Err(NotOneRemote) <==>
              (forall h :: 0 <= h < |hosts| ==> !TwoOnHost(hosts[h], Normalize(cfg, clientIds).Keys))
              && exists k :: k in Normalize(cfg, clientIds) && HostCount(hosts, k) != 1
    ensures r.Err? ==> r == Err(OneClientPerHost) || r == Err(NotOneRemote)
    ensures r.Ok? ==> r.value.Keys == Normalize(cfg, clientIds).Keys
    ensures r.Ok? ==> forall k :: k in r.value ==> HostCount(hosts, k) == 1
    ensures r.Ok? ==> forall k :: k in r.value ==> |r.value[k]| >= 15 && r.value[k][..5] == Prefix(testdir)
    ensures r.Ok? ==> forall k :: k in r.value ==> r.value[k] == RunCmd(testdir, k, Normalize(cfg, clientIds)[k], valgrindArgs)
  {
    var config := Normalize(cfg, clientIds);
    match OnePerHost(hosts, config.Keys)
    case Err(e) => Err(e)
    case Ok(_) =>
      if exists k :: k in config && HostCount(hosts, k) != 1 then Err(NotOneRemote)
      else
        var cmds := map k | k in config :: RunCmd(testdir, k, config[k], valgrindArgs);
        assert forall k :: k in cmds ==> cmds[k][..5] == Prefix(testdir) by {
          forall k | k in cmds
            ensures cmds[k][..5] == Prefix(testdir)
          {
            RunCmdLayout(testdir, k, config[k], valgrindArgs);
          }
        }
        Ok(cmds)
  }

  /** A configured client that no host has, such as a listed
      `client.9` on a cluster without it, makes the task fail. */
  lemma MissingClientFails(cfg: RgwConfig, clientIds: seq<string>, hosts: seq<seq<string>>, testdir: string,
                           valgrindArgs: (string, string, Option<seq<string>>) -> seq<Arg>, k: string)
    requires k in Normalize(cfg, clientIds) && forall h :: 0 <= h < |hosts| ==> k !in hosts[h]
    ensures Task(cfg, clientIds, hosts, testdir, valgrindArgs).Err?
  {
    HostCountIsSize(hosts, k);
    assert HostsWith(hosts, k, 0) == {};
  }

  // ---------------------------------------------------------------------
  // `ship_config` as written

  /** The error of `data=f.format(testdir=testdir)` (rgw.py:60): the
      template is opened as a file object, which has no `format` method. */
  const TemplateNotFormattable := "AttributeError: 'file' object has no attribute 'format'"

  /** The task as the code stands. `ship_config` runs before `start_rgw` and
      stops at the first client of `order`, the dict's iteration order:
      with the unpacking error if that client is not on exactly one host,
      and otherwise with the AttributeError of the template read. Only an
      empty config gets through, with no daemon to start. `Task` is the
      task with the template read first, `f.read().format(...)`. */
  function TaskAsWritten(cfg: RgwConfig, clientIds: seq<string>, hosts: seq<seq<string>>, testdir: string,
                         valgrindArgs: (string, string, Option<seq<string>>) -> seq<Arg>,
                         order: seq<string>): (r: Result<map<string, seq<Arg>>, string>)
    requires forall k :: k in order <==> k in Normalize(cfg, clientIds)
    ensures r == Err(OneClientPerHost) <==> exists h :: 0 <= h < |hosts| && TwoOnHost(hosts[h], Normalize(cfg, clientIds).Keys)
    ensures r.Ok? <==> (forall h :: 0 <= h < |hosts| ==> !TwoOnHost(hosts[h], Normalize(cfg, clientIds).Keys))
                       && |Normalize(cfg, clientIds)| == 0
    ensures r.Ok? ==> r.value == map[]
    ensures r.Err? && r.error != OneClientPerHost ==>
              |order| > 0 && (r.error == NotOneRemote <==> HostCount(hosts, order[0]) != 1)
              && (r.error == TemplateNotFormattable <==> HostCount(hosts, order[0]) == 1)
  {
    var config := Normalize(cfg, clientIds);
    match OnePerHost(hosts, config.Keys)
    case Err(e) => Err(e)
    case Ok(_) =>
      if |order| == 0 then
        assert config.Keys == {};
        Ok(map[])
      else
        assert order[0] in config;
        if HostCount(hosts, order[0]) != 1 then Err(NotOneRemote) else Err(TemplateNotFormattable)
  }

  /** The corrected task fails whenever the task as written does not reach
      `start_rgw`'s commands, and where the code as written succeeds the two
      agree: the defect only ever turns a success into a failure. */
  lemma AsWrittenOnlyFailsMore(cfg: RgwConfig, clientIds: seq<string>, hosts: seq<seq<string>>, testdir: string,
                               valgrindArgs: (string, string, Option<seq<string>>) -> seq<Arg>, order: seq<string>)
    requires forall k :: k in order <==> k in Normalize(cfg, clientIds)
    ensures Task(cfg, clientIds, hosts, testdir, valgrindArgs).Err? ==>
              TaskAsWritten(cfg, clientIds, hosts, testdir, valgrindArgs, order).Err?
    ensures TaskAsWritten(cfg, clientIds, hosts, testdir, valgrindArgs, order).Ok? ==>
              Task(cfg, clientIds, hosts, testdir, valgrindArgs) == TaskAsWritten(cfg, clientIds, hosts, testdir, valgrindArgs, order)
  {
    var r := Task(cfg, clientIds, hosts, testdir, valgrindArgs);
    if TaskAsWritten(cfg, clientIds, hosts, testdir, valgrindArgs, order).Ok? {
      assert Normalize(cfg, clientIds).Keys == {};
      assert r.Ok? ==> r.value.Keys == {};
    }
  }

  /** `rgw: [client.0]` on a host running `client.0` and `osd.0`: the code
      as written raises the AttributeError at the template, where the
      corrected task starts one radosgw (`OneClientStarts`). */
  lemma TemplateFormatFails(valgrindArgs: (string, string, Option<seq<string>>) -> seq<Arg>)
    ensures TaskAsWritten(Names(["client.0"]), [], [["client.0", "osd.0"]], "/t", valgrindArgs, ["client.0"])
            == Err(TemplateNotFormattable)
  {
    OneClientOneHost();
  }

  /** The corrected task on the cluster of `TemplateFormatFails` succeeds. */
  lemma OneClientStarts(valgrindArgs: (string, string, Option<seq<string>>) -> seq<Arg>)
    ensures Task(Names(["client.0"]), [], [["client.0", "osd.0"]], "/t", valgrindArgs).Ok?
  {
    OneClientOneHost();
  }

  /** The cluster of `TemplateFormatFails`: one configured client, alone on
      its host. */
  lemma OneClientOneHost()
    ensures Normalize(Names(["client.0"]), []).Keys == {"client.0"}
    ensures !TwoOnHost(["client.0", "osd.0"], {"client.0"})
    ensures HostCount([["client.0", "osd.0"]], "client.0") == 1
  {
    var hosts := [["client.0", "osd.0"]];
    var roles := hosts[0];
    assert roles[1] == "osd.0" && "osd.0" != "client.0";
    assert forall j :: 0 <= j < |roles| && roles[j] in {"client.0"} ==> j == 0;
    assert hosts[1..] == [];
  }
}

=== FILE: run_cli.dfy ===
/** The two command-line entry points of teuthology: `main`, which checks
    the options, records owner and description in the summary and prepends
    the internal init tasks to the job's task list; and `schedule`, which
    checks its options and builds the job record put on the queue. Parsing,
    logging, directory creation, running the tasks and the queue connection
    are left out; the user name (`get_user()`) is an input. */
module RunCli {
  import opened Wrappers

  /** A YAML value of the job config; only nulls and counts are inspected,
      any other value is carried as an opaque token. */
  datatype Value = Null | Count(n: int) | Opaque(token: nat)

  /** One entry of the `tasks` list: a dict from task name to its config. */
  type Task = map<string, Value>

  /** The parts of the job config `main` reads; `None` is an absent key. */
  datatype JobConfig = JobConfig(
    tasks: Option<seq<Task>>,
    roles: Option<seq<seq<string>>>,
    targets: Option<Value>,
    kernel: Option<Value>)

  datatype RunOptions = RunOptions(block: bool, lock: bool, owner: Option<string>, description: Option<string>)

  datatype Summary = Summary(success: bool, owner: string, description: Option<string>)

  datatype RunError =
    | BlockWithoutLock  // the --block option is only supported with the --lock option
    | KernelInTasks     // kernel installation is not a task
    | TargetsWithLock   // targets cannot be given together with --lock
    | MissingKey(key: string)

  datatype Prepared = Prepared(summary: Summary, tasks: seq<Task>)

  /** A task entry naming one task. */
  function Entry(name: string, v: Value): Task {
    map[name := v]
  }

  /** The init tasks prepended by `main`, in order. */
  function InitTasks(lockCount: Option<nat>, kernel: Option<Value>): seq<Task> {
    (if lockCount.Some? then [Entry("internal.lock_machines", Count(lockCount.value))] else [])
      + [Entry("internal.save_config", Null), Entry("internal.check_lock", Null),
         Entry("internal.connect", Null), Entry("internal.check_conflict", Null)]
      + (if kernel.Some? then [Entry("kernel", kernel.value)] else [])
      + [Entry("internal.base", Null), Entry("internal.archive", Null), Entry("internal.coredump", Null),
         Entry("internal.syslog", Null), Entry("internal.timer", Null)]
  }

  predicate MentionsKernel(t: Task) {
    "kernel" in t
  }

  /** `main` from the option checks up to the call of `run_tasks`. */
  function PrepareRun(o: RunOptions, c: JobConfig, user: string): (r: Result<Prepared, RunError>)
    ensures r == Err(BlockWithoutLock) <==> o.block && !o.lock
    ensures r == Err(KernelInTasks) <==>
              (o.block ==> o.lock) && c.tasks.Some? && exists i :: 0 <= i < |c.tasks.value| && MentionsKernel(c.tasks.value[i])
    ensures r == Err(TargetsWithLock) ==> o.lock && c.targets.Some?
    ensures r.Ok? ==> (o.block ==> o.lock) && !(o.lock && c.targets.Some?) && c.tasks.Some?
    ensures r.Ok? ==> r.value.summary.success && r.value.summary.description == o.description
    ensures r.Ok? ==> r.value.summary.owner == o.owner.GetOr(user)
    ensures r.Ok? ==> forall i :: 0 <= i < |c.tasks.value| ==> !MentionsKernel(c.tasks.value[i])
  {
    if o.block && !o.lock then Err(BlockWithoutLock)
    else
      var summary := Summary(true, o.owner.GetOr(user), o.description);
      match c.tasks
      case None => Err(MissingKey("tasks"))
      case Some(tasks) =>
        if exists i :: 0 <= i < |tasks| && MentionsKernel(tasks[i]) then Err(KernelInTasks)
        else if o.lock && c.targets.Some? then Err(TargetsWithLock)
        else if o.lock && c.roles.None? then Err(MissingKey("roles"))
        else
          var lockCount := if o.lock then Some(|c.roles.value|) else None;
          Ok(Prepared(summary, InitTasks(lockCount, c.kernel) + tasks))
  }

  /** The number of init tasks: nine always, plus the lock and the kernel
      when present. */
  function PrefixLength(lock: bool, kernel: Option<Value>): nat {
    9 + (if lock then 1 else 0) + (if kernel.Some? then 1 else 0)
  }

  /** After a successful `main` the task list is the init prefix followed by
      the job's own tasks unchanged; it starts with the machine lock for the
      number of roles exactly under `--lock`, ends its prefix with the timer,
      and names `kernel` in exactly one entry, the top-level one, and only
      when the config has it. */
  lemma PreparedTasks(o: RunOptions, c: JobConfig, user: string)
    requires PrepareRun(o, c, user).Ok?
    ensures var ts := PrepareRun(o, c, user).value.tasks; var n := PrefixLength(o.lock, c.kernel);
      |ts| == n + |c.tasks.value| && ts[n..] == c.tasks.value
    ensures var ts := PrepareRun(o, c, user).value.tasks;
      (o.lock ==> c.roles.Some? && ts[0] == Entry("internal.lock_machines", Count(|c.roles.value|)))
      && (!o.lock ==> ts[0] == Entry("internal.save_config", Null))
    ensures var ts := PrepareRun(o, c, user).value.tasks; var n := PrefixLength(o.lock, c.kernel);
      ts[n - 1] == Entry("internal.timer", Null)
    ensures var ts := PrepareRun(o, c, user).value.tasks; var k := (if o.lock then 1 else 0) + 4;
      forall i :: 0 <= i < |ts| ==> (MentionsKernel(ts[i]) <==> c.kernel.Some? && i == k)
    ensures var ts := PrepareRun(o, c, user).value.tasks; var k := (if o.lock then 1 else 0) + 4;
      c.kernel.Some? ==> ts[k] == Entry("kernel", c.kernel.value)
  {
    var tasks := c.tasks.value;
    var lockCount := if o.lock then Some(|c.roles.value|) else None;
    var pre := InitTasks(lockCount, c.kernel);
    assert PrepareRun(o, c, user).value.tasks == pre + tasks;
    InitTasksShape(lockCount, c.kernel);
    AppendKeepsKernel(pre, tasks, if c.kernel.Some? then (if o.lock then 1 else 0) + 4 else -1);
  }

  /** The layout of the init prefix. */
  lemma InitTasksShape(lockCount: Option<nat>, kernel: Option<Value>)
    ensures var pre := InitTasks(lockCount, kernel); var b := if lockCount.Some? then 1 else 0;
      |pre| == PrefixLength(lockCount.Some?, kernel)
      && pre[0] == (if lockCount.Some? then Entry("internal.lock_machines", Count(lockCount.value))
                    else Entry("internal.save_config", Null))
      && pre[|pre| - 1] == Entry("internal.timer", Null)
      && (kernel.Some? ==> pre[b + 4] == Entry("kernel", kernel.value))
      && forall i :: 0 <= i < |pre| ==> (MentionsKernel(pre[i]) <==> kernel.Some? && i == b + 4)
  {
    var lock := if lockCount.Some? then [Entry("internal.lock_machines", Count(lockCount.value))] else [];
    var mid := [Entry("internal.save_config", Null), Entry("internal.check_lock", Null),
                Entry("internal.connect", Null), Entry("internal.check_conflict", Null)];
    var kern := if kernel.Some? then [Entry("kernel", kernel.value)] else [];
    var tail := [Entry("internal.base", Null), Entry("internal.archive", Null), Entry("internal.coredump", Null),
                 Entry("internal.syslog", Null), Entry("internal.timer", Null)];
    assert InitTasks(lockCount, kernel) == lock + mid + kern + tail;
    assert forall i :: 0 <= i < |lock| ==> !MentionsKernel(lock[i]);
    assert forall i :: 0 <= i < |mid| ==> !MentionsKernel(mid[i]);
    assert forall i :: 0 <= i < |tail| ==> !MentionsKernel(tail[i]);
    KernelOnlyAt(lock, mid, kern, tail);
  }

  lemma KernelOnlyAt(lock: seq<Task>, mid: seq<Task>, kern: seq<Task>, tail: seq<Task>)
    requires |mid| == 4 && |kern| <= 1
    requires forall i :: 0 <= i < |lock| ==> !MentionsKernel(lock[i])
    requires forall i :: 0 <= i < |mid| ==> !MentionsKernel(mid[i])
    requires forall i :: 0 <= i < |tail| ==> !MentionsKernel(tail[i])
    requires forall i :: 0 <= i < |kern| ==> MentionsKernel(kern[i])
    ensures var pre := lock + mid + kern + tail;
      forall i :: 0 <= i < |pre| ==> (MentionsKernel(pre[i]) <==> |kern| == 1 && i == |lock| + 4)
  {
    var pre := lock + mid + kern + tail;
    var b := |lock|;
    forall i | 0 <= i < |pre|
      ensures MentionsKernel(pre[i]) <==> |kern| == 1 && i == b + 4
    {
      if i < b {
        assert pre[i] == lock[i];
      } else if i < b + 4 {
        assert pre[i] == mid[i - b];
      } else if i < b + 4 + |kern| {
        assert pre[i] == kern[i - b - 4];
      } else {
        assert pre[i] == tail[i - b - 4 - |kern|];
      }
    }
  }

  /** Appending kernel-free tasks to a prefix whose only kernel entry is at
      `k` (none when `k` is negative) keeps `k` the only kernel entry. */
  lemma AppendKeepsKernel(pre: seq<Task>, tasks: seq<Task>, k: int)
    requires k < |pre|
    requires forall i :: 0 <= i < |pre| ==> (MentionsKernel(pre[i]) <==> i == k)
    requires forall i :: 0 <= i < |tasks| ==> !MentionsKernel(tasks[i])
    ensures (pre + tasks)[|pre|..] == tasks
    ensures forall i :: 0 <= i < |pre + tasks| ==> (MentionsKernel((pre + tasks)[i]) <==> i == k)
  {
    var ts := pre + tasks;
    assert ts[|pre|..] == tasks;
    forall i | 0 <= i < |ts|
      ensures MentionsKernel(ts[i]) <==> i == k
    {
      if i >= |pre| {
        assert ts[i] == tasks[i - |pre|];
      } else {
        assert ts[i] == pre[i];
      }
    }
  }

  // ---------------------------------------------------------------------
  // schedule

  datatype ScheduleOptions = ScheduleOptions(
    config: Value,
    name: Option<string>,
    lastInSuite: bool,
    email: Option<string>,
    timeout: Option<int>,
    description: Option<string>,
    owner: Option<string>,
    verbose: bool,
    delete: seq<int>)

  /** Python truthiness of the optional string and integer options. */
  predicate StrTruthy(s: Option<string>) { s.Some? && s.value != "" }
  predicate IntTruthy(n: Option<int>) { n.Some? && n.value != 0 }

  /** A field of the job record as YAML sees it. */
  datatype Field = FNull | FStr(s: string) | FBool(b: bool) | FInt(i: int) | FConfig(v: Value)

  function OptStr(s: Option<string>): Field {
    if s.Some? then FStr(s.value) else FNull
  }

  datatype ScheduleError = EmailNotLast | TimeoutNotLast

  datatype Scheduled =
    | Deleting(jobs: seq<int>)              // remove these job ids from the queue
    | Put(job: map<string, Field>)          // queue this job record

  /** The keys every job record has. */
  const JobKeys: set<string> := {"config", "name", "last_in_suite", "email", "description", "owner", "verbose"}

  /** `schedule` after argument parsing. */
  function Schedule(o: ScheduleOptions, user: string): (r: Result<Scheduled, ScheduleError>)
    ensures r == Err(EmailNotLast) <==> !o.lastInSuite && StrTruthy(o.email)
    ensures r == Err(TimeoutNotLast) <==> !o.lastInSuite && !StrTruthy(o.email) && IntTruthy(o.timeout)
    ensures r.Ok? && r.value.Deleting? <==> r.Ok? && o.delete != []
    ensures r.Ok? && r.value.Deleting? ==> r.value.jobs == o.delete
    ensures r.Ok? && r.value.Put? ==> r.value.job.Keys == JobKeys + (if o.timeout.Some? then {"results_timeout"} else {})
  {
    if !o.lastInSuite && StrTruthy(o.email) then Err(EmailNotLast)
    else if !o.lastInSuite && IntTruthy(o.timeout) then Err(TimeoutNotLast)
    else if o.delete != [] then Ok(Deleting(o.delete))
    else
      var owner := if o.owner.Some? then o.owner.value else "scheduled_" + user;
      var base := map[
        "config" := FConfig(o.config), "name" := OptStr(o.name), "last_in_suite" := FBool(o.lastInSuite),
        "email" := OptStr(o.email), "description" := OptStr(o.description), "owner" := FStr(owner),
        "verbose" := FBool(o.verbose)];
      Ok(Put(if o.timeout.Some? then base["results_timeout" := FInt(o.timeout.value)] else base))
  }

  /** The options a job record carries, read back from it. */
  datatype JobView = JobView(config: Value, name: Option<string>, lastInSuite: bool, email: Option<string>,
                             timeout: Option<int>, description: Option<string>, owner: string, verbose: bool)

  function StrOf(f: Field): Option<Option<string>> {
    match f
    case FNull => Some(None)
    case FStr(s) => Some(Some(s))
    case _ => None
  }

  /** Reads a job record as the worker that picks it up would. */
  function ReadJob(job: map<string, Field>): Option<JobView> {
    if !(JobKeys <= job.Keys) then None
    else if !job["config"].FConfig? || !job["last_in_suite"].FBool? || !job["verbose"].FBool? || !job["owner"].FStr? then None
    else if StrOf(job["name"]).None? || StrOf(job["email"]).None? || StrOf(job["description"]).None? then None
    else if "results_timeout" in job && !job["results_timeout"].FInt? then None
    else
      Some(JobView(job["config"].v, StrOf(job["name"]).value, job["last_in_suite"].b, StrOf(job["email"]).value,
                   if "results_timeout" in job then Some(job["results_timeout"].i) else None,
                   StrOf(job["description"]).value, job["owner"].s, job["verbose"].b))
  }

  /** Reading a queued job back gives every option `schedule` was given,
      with the owner defaulting to `scheduled_<user>`. */
  lemma ScheduleRoundTrip(o: ScheduleOptions, user: string)
    requires Schedule(o, user).Ok? && Schedule(o, user).value.Put?
    ensures ReadJob(Schedule(o, user).value.job) ==
              Some(JobView(o.config, o.name, o.lastInSuite, o.email, o.timeout, o.description,
                           if o.owner.Some? then o.owner.value else "scheduled_" + user, o.verbose))
  {
  }

  /** A zero timeout passes the last-in-suite check (it is falsy) but is
      still recorded, since the record tests for `None` only. */
  lemma ZeroTimeoutRecorded(o: ScheduleOptions, user: string)
    requires !o.lastInSuite && !StrTruthy(o.email) && o.timeout == Some(0) && o.delete == []
    ensures Schedule(o, user).Ok? && Schedule(o, user).value.Put?
    ensures "results_timeout" in Schedule(o, user).value.job
  {
  }
}

=== FILE: text.dfy ===
/** The handful of Python `str` operations the harness relies on, on
    `string` = `seq<char>`: `startswith`, substring `in`, `split('\n')`,
    whitespace `split()`, `strip()`, `int()` and `str()` of an integer. */
module Text {
  import opened Wrappers

  /** Python 2 `str.isspace` on one byte: space, \t, \n, \x0b, \x0c, \r. */
  predicate IsSpace(c: char) {
    c == ' ' || ('\t' <= c <= '\r')
  }

  predicate IsDigit(c: char) {
    '0' <= c <= '9'
  }

  predicate AllDigits(s: string) {
    forall i :: 0 <= i < |s| ==> IsDigit(s[i])
  }

  predicate NoSpace(s: string) {
    forall i :: 0 <= i < |s| ==> !IsSpace(s[i])
  }

  predicate AllSpace(s: string) {
    forall i :: 0 <= i < |s| ==> IsSpace(s[i])
  }

  /** `s.startswith(p)` */
  predicate StartsWith(s: string, p: string) {
    |p| <= |s| && s[..|p|] == p
  }

  /** `p` occurs in `s` at offset `i`. */
  predicate OccursAt(s: string, p: string, i: int) {
    0 <= i && i + |p| <= |s| && s[i..i + |p|] == p
  }

  /** `p in s` for strings: substring search. */
  predicate Contains(s: string, p: string)
    decreases |s|
  {
    StartsWith(s, p) || (|s| > 0 && Contains(s[1..], p))
  }

  /** A witness offset is enough to show `p in s`. */
  lemma {:induction false} OccursAtContains(s: string, p: string, i: int)
    requires OccursAt(s, p, i)
    ensures Contains(s, p)
    decreases i
  {
    if i > 0 {
      assert s[1..][i - 1..i - 1 + |p|] == s[i..i + |p|];
      OccursAtContains(s[1..], p, i - 1);
    }
  }

  /** Every successful search has an offset where the pattern occurs. */
  lemma {:induction false} ContainsWitness(s: string, p: string) returns (i: nat)
    requires Contains(s, p)
    ensures OccursAt(s, p, i)
    decreases |s|
  {
    if StartsWith(s, p) {
      i := 0;
    } else {
      var j := ContainsWitness(s[1..], p);
      i := j + 1;
      assert s[1..][j..j + |p|] == s[i..i + |p|];
    }
  }

  /** The search agrees with the positional definition of a substring. */
  lemma ContainsIffOccurs(s: string, p: string)
    ensures Contains(s, p) <==> exists i :: OccursAt(s, p, i)
  {
    if Contains(s, p) {
      var i := ContainsWitness(s, p);
    }
    if exists i :: OccursAt(s, p, i) {
      var i :| OccursAt(s, p, i);
      OccursAtContains(s, p, i);
    }
  }

  /** `s.split(sep)` for a one-character separator. */
  function SplitOn(s: string, sep: char): (parts: seq<string>)
    ensures |parts| > 0
    ensures forall k :: 0 <= k < |parts| ==> sep !in parts[k]
    decreases |s|
  {
    if |s| == 0 then [""]
    else
      var rest := SplitOn(s[1..], sep);
      if s[0] == sep then [""] + rest
      else [[s[0]] + rest[0]] + rest[1..]
  }

  /** `sep.join(parts)` */
  function Join(parts: seq<string>, sep: char): string
    requires |parts| > 0
    decreases |parts|
  {
    if |parts| == 1 then parts[0] else parts[0] + [sep] + Join(parts[1..], sep)
  }

  /** Splitting loses nothing: joining the pieces back gives the input. */
  lemma {:induction false} JoinSplit(s: string, sep: char)
    ensures Join(SplitOn(s, sep), sep) == s
    decreases |s|
  {
    if |s| > 0 {
      var rest := SplitOn(s[1..], sep);
      JoinSplit(s[1..], sep);
      if s[0] == sep {
        assert Join([""] + rest, sep) == "" + [sep] + Join(rest, sep);
      } else {
        var parts := [[s[0]] + rest[0]] + rest[1..];
        if |rest| == 1 {
          assert Join(parts, sep) == [s[0]] + rest[0];
        } else {
          assert Join(rest, sep) == rest[0] + [sep] + Join(rest[1..], sep);
          assert parts[1..] == rest[1..];
          assert Join(parts, sep) == [s[0]] + rest[0] + [sep] + Join(rest[1..], sep);
        }
      }
      assert s == [s[0]] + s[1..];
    }
  }

  /** Length of the longest whitespace prefix. */
  function LeadingSpaces(s: string): (n: nat)
    ensures n <= |s|
    ensures AllSpace(s[..n])
    ensures n == |s| || !IsSpace(s[n])
    decreases |s|
  {
    if |s| == 0 || !IsSpace(s[0]) then 0
    else
      var m := LeadingSpaces(s[1..]);
      assert s[..m + 1] == [s[0]] + s[1..][..m];
      m + 1
  }

  /** Length of the longest whitespace suffix. */
  function TrailingSpaces(s: string): (n: nat)
    ensures n <= |s|
    ensures AllSpace(s[|s| - n..])
    ensures n == |s| || !IsSpace(s[|s| - n - 1])
    decreases |s|
  {
    if |s| == 0 || !IsSpace(s[|s| - 1]) then 0
    else
      var m := TrailingSpaces(s[..|s| - 1]);
      assert s[|s| - (m + 1)..] == s[..|s| - 1][|s| - 1 - m..] + [s[|s| - 1]];
      m + 1
  }

  /** `r` is `s` with `i` whitespace characters cut from the front and
      only whitespace cut from the back. */
  ghost predicate Trimmed(s: string, r: string, i: int) {
    0 <= i <= |s| - |r| && r == s[i..i + |r|] && AllSpace(s[..i]) && AllSpace(s[i + |r|..])
  }

  /** `s.strip()`: the result is the slice of `s` between its whitespace
      margins, and neither end of it is whitespace. */
  function Strip(s: string): (r: string)
    ensures |r| == 0 || (!IsSpace(r[0]) && !IsSpace(r[|r| - 1]))
    ensures exists i :: Trimmed(s, r, i)
  {
    var lead := LeadingSpaces(s);
    var t := s[lead..];
    var trail := TrailingSpaces(t);
    var r := t[..|t| - trail];
    StripWitness(s, lead, trail);
    r
  }

  lemma StripWitness(s: string, lead: nat, trail: nat)
    requires lead <= |s| && AllSpace(s[..lead]) && (lead == |s| || !IsSpace(s[lead]))
    requires var t := s[lead..]; trail <= |t| && AllSpace(t[|t| - trail..]) && (trail == |t| || !IsSpace(t[|t| - trail - 1]))
    ensures var t := s[lead..]; var r := t[..|t| - trail];
      Trimmed(s, r, lead) && (|r| == 0 || (!IsSpace(r[0]) && !IsSpace(r[|r| - 1])))
  {
    var t := s[lead..];
    var r := t[..|t| - trail];
    assert r == s[lead..lead + |r|];
    assert s[lead + |r|..] == t[|t| - trail..];
    if |r| > 0 {
      assert r[0] == s[lead];
      assert r[|r| - 1] == t[|t| - trail - 1];
    }
  }

  /** Only an all-whitespace string strips to nothing. */
  lemma StripEmpty(s: string)
    ensures |Strip(s)| == 0 <==> AllSpace(s)
  {
    var r := Strip(s);
    var i :| Trimmed(s, r, i);
    if |r| == 0 {
      forall k | 0 <= k < |s|
        ensures IsSpace(s[k])
      {
        if k < i {
          assert s[k] == s[..i][k];
        } else {
          assert s[k] == s[i..][k - i];
        }
      }
    } else {
      assert r[0] == s[i];
    }
  }

  /** Length of the longest prefix with no whitespace. */
  function TokenLength(s: string): (n: nat)
    ensures n <= |s|
    ensures NoSpace(s[..n])
    ensures n == |s| || IsSpace(s[n])
    decreases |s|
  {
    if |s| == 0 || IsSpace(s[0]) then 0
    else
      var m := TokenLength(s[1..]);
      assert s[..m + 1] == [s[0]] + s[1..][..m];
      m + 1
  }

  /** `s.split()[0]`, or `None` where Python raises IndexError because `s`
      holds no token. */
  function FirstToken(s: string): (r: Option<string>)
    ensures r.None? <==> AllSpace(s)
    ensures r.Some? ==> |r.value| > 0 && NoSpace(r.value)
  {
    var lead := LeadingSpaces(s);
    var t := s[lead..];
    if |t| == 0 then
      assert s == s[..lead];
      None
    else
      assert !IsSpace(s[lead]);
      Some(t[..TokenLength(t)])
  }

  /** The token reader inverts writing a token between whitespace. */
  lemma FirstTokenOf(pad: string, tok: string, rest: string)
    requires AllSpace(pad) && |tok| > 0 && NoSpace(tok)
    requires |rest| == 0 || IsSpace(rest[0])
    ensures FirstToken(pad + tok + rest) == Some(tok)
  {
    var s := pad + tok + rest;
    LeadingPrefix(pad, tok + rest);
    assert s == pad + (tok + rest);
    assert s[|pad|..] == tok + rest;
    TokenPrefix(tok, rest);
  }

  lemma {:induction false} LeadingPrefix(pad: string, t: string)
    requires AllSpace(pad) && |t| > 0 && !IsSpace(t[0])
    ensures LeadingSpaces(pad + t) == |pad|
    decreases |pad|
  {
    if |pad| == 0 {
      assert pad + t == t;
    } else {
      LeadingPrefix(pad[1..], t);
      assert (pad + t)[1..] == pad[1..] + t;
    }
  }

  lemma {:induction false} TokenPrefix(tok: string, rest: string)
    requires NoSpace(tok)
    requires |rest| == 0 || IsSpace(rest[0])
    ensures TokenLength(tok + rest) == |tok|
    ensures (tok + rest)[..|tok|] == tok
    decreases |tok|
  {
    if |tok| == 0 {
      assert tok + rest == rest;
    } else {
      TokenPrefix(tok[1..], rest);
      assert (tok + rest)[1..] == tok[1..] + rest;
    }
  }

  function DigitValue(c: char): nat
    requires IsDigit(c)
  {
    c as int - '0' as int
  }

  function DigitChar(d: nat): (c: char)
    requires d < 10
    ensures IsDigit(c) && DigitValue(c) == d
  {
    ('0' as int + d) as char
  }

  /** The decimal value of a digit string. */
  function DigitsValue(s: string): nat
    requires AllDigits(s)
    decreases |s|
  {
    if |s| == 0 then 0 else DigitsValue(s[..|s| - 1]) * 10 + DigitValue(s[|s| - 1])
  }

  /** `str(n)` for a natural number. */
  function NatToString(n: nat): (s: string)
    ensures |s| > 0 && AllDigits(s)
    decreases n
  {
    if n < 10 then [DigitChar(n)] else NatToString(n / 10) + [DigitChar(n % 10)]
  }

  /** `str(i)` for any integer. */
  function IntToString(i: int): (s: string)
    ensures |s| > 0 && NoSpace(s)
  {
    if i < 0 then "-" + NatToString(-i) else NatToString(i)
  }

  /** `int(tok)` for a token without whitespace: an optional sign and a
      non-empty run of decimal digits (leading zeros allowed); `None` where
      Python raises ValueError. */
  function ParseInt(tok: string): Option<int> {
    if |tok| > 0 && (tok[0] == '-' || tok[0] == '+') then
      var body := tok[1..];
      if |body| > 0 && AllDigits(body) then
        var v: int := DigitsValue(body);
        Some(if tok[0] == '-' then -v else v)
      else None
    else if |tok| > 0 && AllDigits(tok) then Some(DigitsValue(tok))
    else None
  }

  lemma {:induction false} NatRoundTrip(n: nat)
    ensures DigitsValue(NatToString(n)) == n
    decreases n
  {
    if n >= 10 {
      NatRoundTrip(n / 10);
      var s := NatToString(n);
      assert s[..|s| - 1] == NatToString(n / 10);
    }
  }

  /** `int(str(i)) == i` */
  lemma IntRoundTrip(i: int)
    ensures ParseInt(IntToString(i)) == Some(i)
  {
    if i < 0 {
      var d := NatToString(-i);
      NatRoundTrip(-i);
      assert IntToString(i) == "-" + d;
      assert ("-" + d)[1..] == d;
    } else {
      var d := NatToString(i);
      NatRoundTrip(i);
      assert IntToString(i) == d && IsDigit(d[0]);
    }
  }
}

=== FILE: thrasher.dfy ===
/** The loops of `Thrasher`: reviving until few enough OSDs are dead,
    `all_up`, one iteration of `do_thrash`, and a whole `do_thrash` run over
    a finite number of iterations followed by `all_up`. The randomness is a
    stream `draw` of naturals consumed one per action (`next` is the first
    unused index) plus, per iteration, the two uniform draws; the
    `wait_till_clean` of an iteration runs over a supplied trace. */
module Thrasher {
  import opened Wrappers
  import opened Membership
  import opened ActionChoice
  import opened ClusterStatus
  import opened Waits

  /** Lists and commands after a run of actions; `next` is the next draw. */
  datatype Run = Run(osds: Osds, cmds: seq<Cmd>, next: nat)

  datatype ThrashFault =
    | ActionFault(fault: Fault)  // an action raised
    | ZeroCleanInterval          // `float(delay) / cleanint` with `clean_interval` 0
    | CleanTimeout               // the `wait_till_clean` assertion failed
    | CleanUndecided             // the supplied trace ended before the wait returned
    | NoEnabledAction            // `choose_action()` returned `None`, which is then called

  /** An iteration that raised, with the lists and commands as left. */
  datatype Halt = Halt(fault: ThrashFault, osds: Osds, cmds: seq<Cmd>)

  /** Only daemon restarts. */
  predicate OnlyRestarts(cmds: seq<Cmd>) {
    forall i :: 0 <= i < |cmds| ==> cmds[i].Restart?
  }

  lemma OnlyRestartsConcat(a: seq<Cmd>, b: seq<Cmd>)
    requires OnlyRestarts(a) && OnlyRestarts(b)
    ensures OnlyRestarts(a + b)
  {
    forall i | 0 <= i < |a + b|
      ensures (a + b)[i].Restart?
    {
      if i >= |a| {
        assert (a + b)[i] == b[i - |a|];
      }
    }
  }

  /** `while len(self.dead_osds) > bound: self.revive_osd()`. With a negative
      bound the loop empties the dead list and then `random.choice([])`
      raises. */
  function ReviveWhileAbove(s: Osds, bound: int, draw: nat -> nat, k: nat): (r: Result<Run, Failure>)
    ensures r.Err? <==> bound < 0
    ensures r.Err? ==> r.error.fault == EmptyChoice && r.error.osds.deadOsds == []
    ensures r.Ok? ==> var t := r.value.osds;
      |t.deadOsds| == (if |s.deadOsds| > bound then bound else |s.deadOsds|)
      && t.inOsds == s.inOsds && t.outOsds == s.outOsds
      && Running(t) == Running(s)
      && |r.value.cmds| == |s.deadOsds| - |t.deadOsds| && r.value.next >= k
      && OnlyRestarts(r.value.cmds)
    decreases |s.deadOsds|
  {
    if |s.deadOsds| <= bound then Ok(Run(s, [], k))
    else
      var step := Revive(s, None, draw(k));
      if step.Err? then Err(step.error)
      else
        OutcomeKeeps(s, step);
        var rest := ReviveWhileAbove(step.value.osds, bound, draw, k + 1);
        if rest.Err? then Err(Failure(rest.error.fault, rest.error.osds, step.value.cmds + rest.error.cmds))
        else
          OnlyRestartsConcat(step.value.cmds, rest.value.cmds);
          Ok(Run(rest.value.osds, step.value.cmds + rest.value.cmds, rest.value.next))
  }

  /** `while len(self.out_osds) > 0: self.in_osd()`. An out id that is dead
      is revived rather than marked in, so the loop ends once neither list
      holds it; `random.choice` always has an id to pick, so nothing raises. */
  function InWhileOut(s: Osds, draw: nat -> nat, k: nat): (r: Run)
    ensures r.osds.outOsds == []
    ensures |r.osds.deadOsds| <= |s.deadOsds|
    ensures Admitted(r.osds) == Admitted(s) && Running(r.osds) == Running(s)
    ensures Restoring(r.cmds)
    decreases |s.outOsds| + |s.deadOsds|
  {
    if |s.outOsds| == 0 then Run(s, [], k)
    else
      var step := InStep(s, draw(k));
      var rest := InWhileOut(step.osds, draw, k + 1);
      RestoringConcat(step.cmds, rest.cmds);
      Run(rest.osds, step.cmds + rest.cmds, rest.next)
  }

  /** Only restarts and mark-ins: the commands that bring an OSD back. */
  predicate Restoring(cmds: seq<Cmd>) {
    forall i :: 0 <= i < |cmds| ==> cmds[i].MarkIn? || cmds[i].Restart?
  }

  lemma RestoringConcat(a: seq<Cmd>, b: seq<Cmd>)
    requires Restoring(a) && Restoring(b)
    ensures Restoring(a + b)
  {
    forall i | 0 <= i < |a + b|
      ensures (a + b)[i].MarkIn? || (a + b)[i].Restart?
    {
      if i >= |a| {
        assert (a + b)[i] == b[i - |a|];
      }
    }
  }

  /** `in_osd()` with a non-empty out list completes, moving one id along
      one axis. */
  function InStep(s: Osds, draw: nat): (step: Step)
    requires |s.outOsds| > 0
    ensures |step.osds.outOsds| + |step.osds.deadOsds| < |s.outOsds| + |s.deadOsds|
    ensures |step.osds.deadOsds| <= |s.deadOsds|
    ensures Admitted(step.osds) == Admitted(s) && Running(step.osds) == Running(s)
    ensures step.cmds == [MarkIn(step.osd)] || step.cmds == [Restart(step.osd)]
  {
    var r := In(s, None, draw);
    OutcomeKeeps(s, r);
    r.value
  }

  /** `all_up`: revive every dead OSD, then mark every out OSD in. */
  function AllUp(s: Osds, draw: nat -> nat, k: nat): (r: Run)
    ensures r.osds.deadOsds == [] && r.osds.outOsds == []
    ensures Admitted(r.osds) == Admitted(s) && Running(r.osds) == Running(s)
    ensures Valid(s) ==> Valid(r.osds) && multiset(r.osds.inOsds) == Admitted(s) && multiset(r.osds.liveOsds) == Admitted(s)
  {
    var revived := ReviveWhileAbove(s, 0, draw, k).value;
    var ins := InWhileOut(revived.osds, draw, revived.next);
    Run(ins.osds, revived.cmds + ins.cmds, ins.next)
  }

  /** A state with nobody dead or out is left alone, so `all_up` is
      idempotent. */
  lemma AllUpIdempotent(s: Osds, draw: nat -> nat, k: nat, k2: nat)
    ensures var t := AllUp(s, draw, k).osds; AllUp(t, draw, k2) == Run(t, [], k2)
  {
  }

  // ---------------------------------------------------------------------
  // One iteration of `do_thrash`

  /** `clean_interval`, default 60. */
  function CleanInterval(c: Config): real {
    c.cleanInterval.GetOr(IntNum(60)).AsReal()
  }

  /** `op_delay`, default 5. */
  function OpDelay(c: Config): real {
    c.opDelay.GetOr(IntNum(5)).AsReal()
  }

  /** `max_dead`, default 0. */
  function MaxDead(c: Config): int {
    c.maxDead.GetOr(0)
  }

  /** `float(delay) / cleanint`: the chance of a clean step per iteration. */
  function CleanChance(c: Config): real
    requires CleanInterval(c) != 0.0
  {
    OpDelay(c) / CleanInterval(c)
  }

  /** What `wait_till_clean` observes: its start time, the active+clean
      count it reads first, and the polls. */
  datatype CleanWait = CleanWait(start: int, initial: nat, trace: seq<Sample<PgObservation>>)

  /** The random inputs of one iteration: the `uniform(0, 1)` roll against
      `delay / cleanint`, the polls of the clean wait (read only when the
      roll is under), and the draw `val` of `choose_action`. */
  datatype Round = Round(roll: real, clean: CleanWait, val: real)

  /** The optional revive-and-wait step that starts an iteration. */
  function PreClean(s: Osds, c: Config, round: Round, draw: nat -> nat, k: nat): (r: Result<Run, Halt>)
    requires CleanInterval(c) != 0.0
    ensures round.roll >= CleanChance(c) ==> r == Ok(Run(s, [], k))
    ensures round.roll < CleanChance(c) && r.Ok? ==>
              |r.value.osds.deadOsds| <= MaxDead(c)
              && WaitTillClean(round.clean.start, round.clean.initial, round.clean.trace, c.timeout).Reached?
    ensures r.Ok? ==>
              r.value.next >= k && r.value.osds.inOsds == s.inOsds && r.value.osds.outOsds == s.outOsds
              && Running(r.value.osds) == Running(s)
    ensures r.Err? && r.error.fault == CleanTimeout ==> c.timeout.Some?
  {
    if round.roll < CleanChance(c) then
      match ReviveWhileAbove(s, MaxDead(c), draw, k)
      case Err(f) => Err(Halt(ActionFault(f.fault), f.osds, f.cmds))
      case Ok(run) =>
        match WaitTillClean(round.clean.start, round.clean.initial, round.clean.trace, c.timeout)
        case Reached(_) => Ok(run)
        case TimedOut(_) => Err(Halt(CleanTimeout, run.osds, run.cmds))
        case Unfinished => Err(Halt(CleanUndecided, run.osds, run.cmds))
    else Ok(Run(s, [], k))
  }

  /** One pass of the `while not self.stopping` loop, without the sleep. */
  function ThrashIteration(s: Osds, c: Config, round: Round, draw: nat -> nat, k: nat): (r: Result<Run, Halt>)
    ensures CleanInterval(c) == 0.0 ==> r == Err(Halt(ZeroCleanInterval, s, []))
    ensures r.Ok? ==> r.value.next > k && Admitted(r.value.osds) == Admitted(s) && Running(r.value.osds) == Running(s)
    ensures r.Ok? && Valid(s) ==> Valid(r.value.osds)
  {
    if CleanInterval(c) == 0.0 then Err(Halt(ZeroCleanInterval, s, []))
    else
      match PreClean(s, c, round, draw, k)
      case Err(h) => Err(h)
      case Ok(pre) =>
        match ChooseAction(pre.osds, c, round.val)
        case None => Err(Halt(NoEnabledAction, pre.osds, pre.cmds))
        case Some(a) =>
          var step := Apply(a, pre.osds, draw(pre.next));
          if step.Err? then Err(Halt(ActionFault(step.error.fault), step.error.osds, pre.cmds + step.error.cmds))
          else
            ApplyKeeps(a, pre.osds, draw(pre.next));
            Ok(Run(step.value.osds, pre.cmds + step.value.cmds, pre.next + 1))
  }

  /** A completed action keeps both axes' ids. */
  lemma ApplyKeeps(a: Action, s: Osds, draw: nat)
    ensures var r := Apply(a, s, draw);
      r.Ok? ==> Admitted(r.value.osds) == Admitted(s) && Running(r.value.osds) == Running(s)
  {
    OutcomeKeeps(s, Apply(a, s, draw));
  }

  /** `do_thrash` for as many iterations as `rounds` holds, then `all_up`.
      An exception ends the greenlet before `all_up`. */
  function DoThrash(s: Osds, c: Config, rounds: seq<Round>, draw: nat -> nat, k: nat): (r: Result<Run, Halt>)
    ensures r.Ok? ==> r.value.osds.deadOsds == [] && r.value.osds.outOsds == []
    ensures r.Ok? ==> Admitted(r.value.osds) == Admitted(s) && Running(r.value.osds) == Running(s)
    ensures r.Ok? && Valid(s) ==>
              Valid(r.value.osds) && multiset(r.value.osds.inOsds) == Admitted(s)
              && multiset(r.value.osds.liveOsds) == Admitted(s)
    decreases |rounds|
  {
    if |rounds| == 0 then Ok(AllUp(s, draw, k))
    else
      match ThrashIteration(s, c, rounds[0], draw, k)
      case Err(h) => Err(h)
      case Ok(run) =>
        match DoThrash(run.osds, c, rounds[1..], draw, run.next)
        case Err(h) => Err(Halt(h.fault, h.osds, run.cmds + h.cmds))
        case Ok(rest) => Ok(Run(rest.osds, run.cmds + rest.cmds, rest.next))
  }

  // ---------------------------------------------------------------------
  // Properties of an iteration

  /** With the default config (`clean_interval` 60, `op_delay` 5,
      `max_dead` 0) a roll under 5/60 revives every dead OSD before the
      clean wait. */
  lemma DefaultPreCleanRevivesAll(s: Osds, round: Round, draw: nat -> nat, k: nat)
    requires round.roll < 5.0 / 60.0
    ensures PreClean(s, EmptyConfig, round, draw, k).Ok? ==> PreClean(s, EmptyConfig, round, draw, k).value.osds.deadOsds == []
    ensures PreClean(s, EmptyConfig, round, draw, k).Err? ==> PreClean(s, EmptyConfig, round, draw, k).error.fault == CleanUndecided
  {
    var c := EmptyConfig;
    assert CleanInterval(c) == 60.0 && OpDelay(c) == 5.0 && MaxDead(c) == 0;
    CleanNoTimeout(round.clean.start, round.clean.initial, round.clean.trace);
  }

  /** When no action is enabled after the optional clean step, the
      iteration fails: the `None` returned is called. */
  lemma NothingEnabledFails(s: Osds, c: Config, round: Round, draw: nat -> nat, k: nat)
    requires CleanInterval(c) != 0.0
    requires round.roll >= CleanChance(c)
    requires !Enabled(s, c, OutOsd) && !Enabled(s, c, KillOsd) && !Enabled(s, c, InOsd) && !Enabled(s, c, ReviveOsd)
    ensures ThrashIteration(s, c, round, draw, k) == Err(Halt(NoEnabledAction, s, []))
  {
  }

  /** With non-negative floors the chosen action always finds an id: an
      enabled action's list is longer than its floor. */
  lemma ChosenActionCompletes(s: Osds, c: Config, val: real, draw: nat)
    requires MinIn(c) >= 0 && MinOut(c) >= 0 && MinLive(c) >= 0 && MinDead(c) >= 0
    requires ChooseAction(s, c, val).Some?
    ensures Apply(ChooseAction(s, c, val).value, s, draw).Ok?
  {
  }
}

=== FILE: waits.dfy ===
/** The four blocking waits of `CephManager`. Each polls a cluster predicate
    every few seconds until it holds, under one of two timeout policies:
    absolute (elapsed time since the call) for `wait_till_osd_is_up`,
    `wait_till_active` and `wait_for_mon_quorum_size`, and stagnation-reset
    (elapsed time since the active+clean count last changed) for
    `wait_till_clean`. The clock and the cluster are replaced by a finite
    trace of timestamped observations, one per poll; sleeping is the step to
    the next sample. */
module Waits {
  import opened Wrappers
  import opened ClusterStatus

  /** One poll: the clock reading and what the cluster reported. */
  datatype Sample<T> = Sample(time: int, obs: T)

  /** The wait returned at sample `at`, failed its timeout assertion at
      sample `at`, or was still waiting when the trace ended. */
  datatype WaitOutcome = Reached(at: nat) | TimedOut(at: nat) | Unfinished

  /** The assertion `time.time() - start < timeout` fails; it is skipped when
      the timeout is `None`. */
  predicate Expired(now: int, start: int, timeout: Option<int>) {
    timeout.Some? && now - start >= timeout.value
  }

  /** Neither the predicate nor the deadline fired on samples `lo..hi`. */
  ghost predicate Quiet<T>(trace: seq<Sample<T>>, holds: T -> bool, start: int, timeout: Option<int>, lo: nat, hi: nat)
    requires hi <= |trace|
  {
    forall j :: lo <= j < hi ==> !holds(trace[j].obs) && !Expired(trace[j].time, start, timeout)
  }

  // ---------------------------------------------------------------------
  // Absolute policy

  /** The poll loop from sample `i` on, with the timer started at `start`:
      the outcome is decided by the first sample on which the predicate holds
      or the deadline has passed, the predicate being checked first. */
  function AbsoluteWait<T>(trace: seq<Sample<T>>, holds: T -> bool, start: int, timeout: Option<int>, i: nat): (r: WaitOutcome)
    requires i <= |trace|
    ensures r.Reached? ==> i <= r.at < |trace| && holds(trace[r.at].obs) && Quiet(trace, holds, start, timeout, i, r.at)
    ensures r.TimedOut? ==>
              i <= r.at < |trace| && !holds(trace[r.at].obs) && Expired(trace[r.at].time, start, timeout)
              && Quiet(trace, holds, start, timeout, i, r.at)
    ensures r.Unfinished? ==> Quiet(trace, holds, start, timeout, i, |trace|)
    decreases |trace| - i
  {
    if i == |trace| then Unfinished
    else if holds(trace[i].obs) then Reached(i)
    else if Expired(trace[i].time, start, timeout) then TimedOut(i)
    else AbsoluteWait(trace, holds, start, timeout, i + 1)
  }

  /** Without a timeout an absolute wait never fails. */
  lemma {:induction false} AbsoluteNoTimeout<T>(trace: seq<Sample<T>>, holds: T -> bool, start: int, i: nat)
    requires i <= |trace|
    ensures !AbsoluteWait(trace, holds, start, None, i).TimedOut?
    decreases |trace| - i
  {
    if i < |trace| && !holds(trace[i].obs) {
      AbsoluteNoTimeout(trace, holds, start, i + 1);
    }
  }

  /** `osd_is_up`: the `up` field of the OSD's dump entry is positive. */
  predicate OsdIsUp(up: int) {
    up > 0
  }

  /** `wait_till_osd_is_up(osd, timeout=None)`, observing the OSD's `up` field. */
  function WaitTillOsdIsUp(start: int, trace: seq<Sample<int>>, timeout: Option<int>): (r: WaitOutcome)
    ensures r.Reached? ==> r.at < |trace| && trace[r.at].obs > 0 && Quiet(trace, OsdIsUp, start, timeout, 0, r.at)
    ensures r.TimedOut? ==>
              r.at < |trace| && trace[r.at].obs <= 0 && timeout.Some? && trace[r.at].time - start >= timeout.value
              && Quiet(trace, OsdIsUp, start, timeout, 0, r.at)
    ensures r.Unfinished? ==> Quiet(trace, OsdIsUp, start, timeout, 0, |trace|)
  {
    AbsoluteWait(trace, OsdIsUp, start, timeout, 0)
  }

  /** `wait_till_active(timeout=None)` */
  function WaitTillActive(start: int, trace: seq<Sample<PgObservation>>, timeout: Option<int>): (r: WaitOutcome)
    ensures r.Reached? ==> r.at < |trace| && IsActive(trace[r.at].obs) && Quiet(trace, IsActive, start, timeout, 0, r.at)
    ensures r.TimedOut? ==>
              r.at < |trace| && !IsActive(trace[r.at].obs) && timeout.Some? && trace[r.at].time - start >= timeout.value
              && Quiet(trace, IsActive, start, timeout, 0, r.at)
    ensures r.Unfinished? ==> Quiet(trace, IsActive, start, timeout, 0, |trace|)
  {
    AbsoluteWait(trace, IsActive, start, timeout, 0)
  }

  /** The default deadline of `wait_for_mon_quorum_size`, in seconds. */
  const QuorumTimeoutDefault: Option<int> := Some(300)

  /** `wait_for_mon_quorum_size(size, timeout=300)`, observing the quorum
      member list. */
  function WaitForMonQuorumSize(size: int, start: int, trace: seq<Sample<seq<int>>>, timeout: Option<int>): (r: WaitOutcome)
    ensures r.Reached? ==> r.at < |trace| && |trace[r.at].obs| == size && QuorumQuiet(trace, size, start, timeout, r.at)
    ensures r.TimedOut? ==>
              r.at < |trace| && |trace[r.at].obs| != size && timeout.Some? && trace[r.at].time - start >= timeout.value
              && QuorumQuiet(trace, size, start, timeout, r.at)
    ensures r.Unfinished? ==> QuorumQuiet(trace, size, start, timeout, |trace|)
  {
    AbsoluteWait(trace, (q: seq<int>) => |q| == size, start, timeout, 0)
  }

  /** No poll before `hi` saw the wanted quorum size or passed the deadline. */
  ghost predicate QuorumQuiet(trace: seq<Sample<seq<int>>>, size: int, start: int, timeout: Option<int>, hi: nat)
    requires hi <= |trace|
  {
    forall j :: 0 <= j < hi ==> |trace[j].obs| != size && !Expired(trace[j].time, start, timeout)
  }

  /** A quorum that never reaches the wanted size fails exactly at the first
      poll 300 seconds or more after the start. */
  lemma QuorumDefaultDeadline(size: int, start: int, trace: seq<Sample<seq<int>>>, k: nat)
    requires k < |trace|
    requires forall j :: 0 <= j < |trace| ==> |trace[j].obs| != size
    requires trace[k].time - start >= 300
    requires forall j :: 0 <= j < k ==> trace[j].time - start < 300
    ensures WaitForMonQuorumSize(size, start, trace, QuorumTimeoutDefault) == TimedOut(k)
  {
    var r := WaitForMonQuorumSize(size, start, trace, QuorumTimeoutDefault);
    assert r.Reached? || r.TimedOut? ==> r.at <= k;
    assert r.TimedOut? ==> r.at >= k;
  }

  // ---------------------------------------------------------------------
  // Stagnation-reset policy

  /** The progress metric of `wait_till_clean`. */
  function Progress(o: PgObservation): nat {
    NumActiveClean(o.states)
  }

  ghost predicate NeverClean(trace: seq<Sample<PgObservation>>, lo: nat, hi: nat)
    requires hi <= |trace|
  {
    forall j :: lo <= j < hi ==> !IsClean(trace[j].obs)
  }

  /** The progress metric equals `c` on every sample `lo..hi`. */
  ghost predicate Steady(trace: seq<Sample<PgObservation>>, c: nat, lo: nat, hi: nat)
    requires hi <= |trace|
  {
    forall j :: lo <= j < hi ==> Progress(trace[j].obs) == c
  }

  /** Sample `a` resets the timer: its metric differs from the one the loop
      holds, which is `last` at the first sample `i` and afterwards the
      metric of the previous sample. */
  ghost predicate ResetAt(trace: seq<Sample<PgObservation>>, last: nat, i: nat, a: nat)
    requires i <= a < |trace|
  {
    Progress(trace[a].obs) != (if a == i then last else Progress(trace[a - 1].obs))
  }

  /** Sample `at` comes at least `timeout` after the timer was last reset:
      at the start (time `start`, metric `last`) when no sample from `i`
      on has moved the metric, or else at the last sample `a` that moved
      it. This is exactly when the deadline check at `at` fails. */
  ghost predicate StalledFor(trace: seq<Sample<PgObservation>>, start: int, last: nat, timeout: Option<int>, i: nat, at: nat)
    requires i <= at < |trace|
  {
    timeout.Some? &&
    ((Steady(trace, last, i, at) && trace[at].time - start >= timeout.value) ||
     (exists a :: i <= a < at && ResetAt(trace, last, i, a) && Steady(trace, Progress(trace[a].obs), a + 1, at)
                  && trace[at].time - trace[a].time >= timeout.value))
  }

  /** No sample from `i` up to, not including, `hi` is stalled. */
  ghost predicate NoStall(trace: seq<Sample<PgObservation>>, start: int, last: nat, timeout: Option<int>, i: nat, hi: nat)
    requires i <= hi <= |trace|
  {
    forall j :: i <= j < hi ==> !StalledFor(trace, start, last, timeout, i, j)
  }

  /** `r` is decided by the first sample from `i` on that is clean (the
      wait returns there) or else stalled (the deadline assertion fails
      there); with neither, the trace ran out while waiting. */
  ghost predicate FirstCleanOrStalled(trace: seq<Sample<PgObservation>>, start: int, last: nat, timeout: Option<int>, i: nat, r: WaitOutcome)
    requires i <= |trace|
  {
    (r.Reached? ==>
       i <= r.at < |trace| && IsClean(trace[r.at].obs) && NeverClean(trace, i, r.at)
       && NoStall(trace, start, last, timeout, i, r.at))
    && (r.TimedOut? ==>
          i <= r.at < |trace| && NeverClean(trace, i, r.at + 1) && StalledFor(trace, start, last, timeout, i, r.at)
          && NoStall(trace, start, last, timeout, i, r.at))
    && (r.Unfinished? ==> NeverClean(trace, i, |trace|) && NoStall(trace, start, last, timeout, i, |trace|))
  }

  /** The loop of `wait_till_clean` from sample `i` on, with the timer last
      reset at `start` when the metric was `last`: check clean, then the
      deadline, then reset the timer if the metric moved. The outcome is
      the first sample that is clean or stalled. */
  function StagnationWait(trace: seq<Sample<PgObservation>>, start: int, last: nat, timeout: Option<int>, i: nat): (r: WaitOutcome)
    requires i <= |trace|
    ensures FirstCleanOrStalled(trace, start, last, timeout, i, r)
    decreases |trace| - i
  {
    if i == |trace| then Unfinished
    else if IsClean(trace[i].obs) then Reached(i)
    else if Expired(trace[i].time, start, timeout) then
      StallAtStart(trace, start, last, timeout, i);
      TimedOut(i)
    else
      var cur := Progress(trace[i].obs);
      var start2 := if cur != last then trace[i].time else start;
      var r := StagnationWait(trace, start2, cur, timeout, i + 1);
      StagnationStep(trace, start, last, timeout, i, r);
      r
  }

  /** The contract of the loop admits one outcome only. */
  lemma StagnationDetermined(trace: seq<Sample<PgObservation>>, start: int, last: nat, timeout: Option<int>, i: nat, r: WaitOutcome)
    requires i <= |trace| && FirstCleanOrStalled(trace, start, last, timeout, i, r)
    ensures r == StagnationWait(trace, start, last, timeout, i)
  {
  }

  /** At the first sample the stall is the plain deadline check. */
  lemma StallAtStart(trace: seq<Sample<PgObservation>>, start: int, last: nat, timeout: Option<int>, i: nat)
    requires i < |trace|
    ensures StalledFor(trace, start, last, timeout, i, i) <==> Expired(trace[i].time, start, timeout)
  {
    assert Steady(trace, last, i, i);
  }

  /** Stepping past sample `i`: the stall at a later sample is the stall
      seen from `i + 1` with the timer as sample `i` leaves it. */
  lemma StallShift(trace: seq<Sample<PgObservation>>, start: int, last: nat, timeout: Option<int>, i: nat, j: nat)
    requires i < j < |trace|
    ensures var cur := Progress(trace[i].obs);
      StalledFor(trace, start, last, timeout, i, j) <==>
      StalledFor(trace, if cur != last then trace[i].time else start, cur, timeout, i + 1, j)
  {
    var cur := Progress(trace[i].obs);
    if StalledFor(trace, start, last, timeout, i, j) {
      StallShiftForward(trace, start, last, timeout, i, j);
    }
    if StalledFor(trace, if cur != last then trace[i].time else start, cur, timeout, i + 1, j) {
      StallShiftBack(trace, start, last, timeout, i, j);
    }
  }

  /** Past the first sample, the resets seen from `i` and from `i + 1` agree. */
  lemma ResetAgree(trace: seq<Sample<PgObservation>>, last: nat, i: nat, a: nat)
    requires i < a < |trace|
    ensures ResetAt(trace, last, i, a) <==> ResetAt(trace, Progress(trace[i].obs), i + 1, a)
  {
  }

  lemma StallShiftForward(trace: seq<Sample<PgObservation>>, start: int, last: nat, timeout: Option<int>, i: nat, j: nat)
    requires i < j < |trace|
    requires StalledFor(trace, start, last, timeout, i, j)
    ensures var cur := Progress(trace[i].obs);
      StalledFor(trace, if cur != last then trace[i].time else start, cur, timeout, i + 1, j)
  {
    var cur := Progress(trace[i].obs);
    if Steady(trace, last, i, j) && trace[j].time - start >= timeout.value {
      assert cur == last;
      assert Steady(trace, cur, i + 1, j);
    } else {
      var a :| i <= a < j && ResetAt(trace, last, i, a) && Steady(trace, Progress(trace[a].obs), a + 1, j)
               && trace[j].time - trace[a].time >= timeout.value;
      if a > i {
        ResetAgree(trace, last, i, a);
      }
    }
  }

  lemma StallShiftBack(trace: seq<Sample<PgObservation>>, start: int, last: nat, timeout: Option<int>, i: nat, j: nat)
    requires i < j < |trace|
    requires var cur := Progress(trace[i].obs);
      StalledFor(trace, if cur != last then trace[i].time else start, cur, timeout, i + 1, j)
    ensures StalledFor(trace, start, last, timeout, i, j)
  {
    var cur := Progress(trace[i].obs);
    var start2 := if cur != last then trace[i].time else start;
    if Steady(trace, cur, i + 1, j) && trace[j].time - start2 >= timeout.value {
      if cur != last {
        assert ResetAt(trace, last, i, i);
      } else {
        assert Steady(trace, last, i, j);
      }
    } else {
      var a :| i + 1 <= a < j && ResetAt(trace, cur, i + 1, a) && Steady(trace, Progress(trace[a].obs), a + 1, j)
               && trace[j].time - trace[a].time >= timeout.value;
      ResetAgree(trace, last, i, a);
    }
  }

  /** The contract of the loop from `i + 1` gives the contract from `i`
      when sample `i` is neither clean nor stalled. */
  lemma StagnationStep(trace: seq<Sample<PgObservation>>, start: int, last: nat, timeout: Option<int>, i: nat, r: WaitOutcome)
    requires i < |trace| && !IsClean(trace[i].obs) && !Expired(trace[i].time, start, timeout)
    requires var cur := Progress(trace[i].obs);
      FirstCleanOrStalled(trace, if cur != last then trace[i].time else start, cur, timeout, i + 1, r)
    ensures FirstCleanOrStalled(trace, start, last, timeout, i, r)
  {
    var hi := if r.Unfinished? then |trace| else r.at;
    StallAtStart(trace, start, last, timeout, i);
    forall j | i < j < hi
      ensures !StalledFor(trace, start, last, timeout, i, j)
    {
      StallShift(trace, start, last, timeout, i, j);
    }
    if r.TimedOut? {
      StallShift(trace, start, last, timeout, i, r.at);
    }
  }

  /** `wait_till_clean(timeout=None)`: the timer starts at `start` with the
      metric at `initial`. */
  function WaitTillClean(start: int, initial: nat, trace: seq<Sample<PgObservation>>, timeout: Option<int>): (r: WaitOutcome)
    ensures r.Reached? ==> r.at < |trace| && IsClean(trace[r.at].obs) && forall j :: 0 <= j < r.at ==> !IsClean(trace[j].obs)
    ensures r.TimedOut? ==> timeout.Some? && r.at < |trace| && !IsClean(trace[r.at].obs)
    ensures r.TimedOut? ==> StalledFor(trace, start, initial, timeout, 0, r.at)
    ensures !r.Unfinished? ==> NoStall(trace, start, initial, timeout, 0, r.at)
    ensures r.Unfinished? ==> NoStall(trace, start, initial, timeout, 0, |trace|)
    ensures FirstCleanOrStalled(trace, start, initial, timeout, 0, r)
  {
    StagnationWait(trace, start, initial, timeout, 0)
  }

  /** A PG table of `n` PGs of which the first `k` are active+clean. */
  function Pgs(k: nat, n: nat): PgObservation {
    PgObservation(seq(n, i => if i < k then "active+clean" else "peering"), n)
  }

  /** The metric moves at t=0, 5 and 9 and the timeout is 4: the wait fails
      at t=5, five seconds after the reset at t=0, rather than running on. */
  lemma StallExample()
    ensures WaitTillClean(0, 0, [Sample(0, Pgs(1, 9)), Sample(5, Pgs(2, 9)), Sample(9, Pgs(3, 9))], Some(4)) == TimedOut(1)
  {
    PgsProgress(1, 9);
    PgsProgress(2, 9);
  }

  lemma PgsProgress(k: nat, n: nat)
    requires k < n
    ensures Progress(Pgs(k, n)) == k && !IsClean(Pgs(k, n))
  {
    CountLeading(Pgs(k, n).states, "active+clean", k);
  }

  /** While the metric keeps moving and every poll comes within `timeout` of
      the previous one, the stagnation wait never fails, however long it
      runs in total. */
  lemma {:induction false} ProgressNeverTimesOut(trace: seq<Sample<PgObservation>>, start: int, last: nat, timeout: int, i: nat)
    requires i <= |trace|
    requires i < |trace| ==> trace[i].time - start < timeout && Progress(trace[i].obs) != last
    requires forall j :: i < j < |trace| ==> trace[j].time - trace[j - 1].time < timeout
    requires forall j :: i < j < |trace| ==> Progress(trace[j].obs) != Progress(trace[j - 1].obs)
    ensures !StagnationWait(trace, start, last, Some(timeout), i).TimedOut?
    decreases |trace| - i
  {
    if i < |trace| && !IsClean(trace[i].obs) {
      ProgressNeverTimesOut(trace, trace[i].time, Progress(trace[i].obs), timeout, i + 1);
    }
  }

  /** When the metric never moves, the stagnation wait is the absolute wait
      for `is_clean`. */
  lemma {:induction false} SteadyIsAbsolute(trace: seq<Sample<PgObservation>>, start: int, last: nat, timeout: Option<int>, i: nat)
    requires i <= |trace| && Steady(trace, last, i, |trace|)
    ensures StagnationWait(trace, start, last, timeout, i) == AbsoluteWait(trace, IsClean, start, timeout, i)
    decreases |trace| - i
  {
    if i < |trace| {
      SteadyIsAbsolute(trace, start, last, timeout, i + 1);
    }
  }

  /** Without a timeout `wait_till_clean` never fails. */
  lemma CleanNoTimeout(start: int, initial: nat, trace: seq<Sample<PgObservation>>)
    ensures !WaitTillClean(start, initial, trace, None).TimedOut?
  {
  }
}

=== FILE: wrappers.dfy ===
/** Failure-compatible Option and Result types shared by every module. A
    Python exception is modelled as the `Err` case of a `Result`. */
module Wrappers {

  datatype Option<+T> = None | Some(value: T) {
    predicate IsFailure() {
      None?
    }

    function PropagateFailure<U>(): Option<U>
      requires None?
    {
      None
    }

    function Extract(): T
      requires Some?
    {
      value
    }

    /** Python's `d.get(key, default)` once the lookup has been done. */
    function GetOr(default: T): T {
      match this
      case Some(v) => v
      case None => default
    }
  }

  datatype Result<+T, +E> = Ok(value: T) | Err(error: E) {
    predicate IsFailure() {
      Err?
    }

    function PropagateFailure<U>(): Result<U, E>
      requires Err?
    {
      Err(error)
    }

    function Extract(): T
      requires Ok?
    {
      value
    }
  }
}
